=== FILE: README.md ===
# Job finder of the generic webhook trigger, in Dafny

This project models the core of the Jenkins *Generic Webhook Trigger* plugin. The core decides which jobs an incoming webhook triggers. It has three parts:

- **Token authorisation** (`JobFinder.java`). A caller-supplied token is checked against up to three secrets:
  - the trigger's literal token;
  - the trigger's token taken from the credential store;
  - the job's legacy `BuildAuthorizationToken`.

  Around that check sit the selection of a job's first generic trigger and the two ways of finding jobs: lookup by full name, or a scan of all jobs. If lookup by full name finds nothing, the scan runs as a fallback.
- **Template rendering** (`Renderer.java`). `renderText` substitutes `$name` and `${name}` placeholders. Longer names go first, so that `$id` cannot consume the start of `$id_long`. `isMatching` has a "no filter configured" shortcut.
- **Path resolution** (`Renderer.render` and `JobFinderConfig.getFullNameList`). A configured path such as `org/${$.repository.name}` is split on `/`, and each `${…}` field is resolved against every payload entry. The configuration turns these into the list of full job names to look up.

How the model represents Java:

- A Java `String` that may be null is an `Option<string>`. A Dafny `char` is a Unicode scalar value, not a UTF-16 code unit, so lengths and character order agree with Java only for text in the Basic Multilingual Plane (see "## Left out").
- A `Map<String,String>` is a sequence of key/value pairs in iteration order (`JavaMap.StringMap`). Render's output order follows that order.
- The string operations the code relies on are defined in `JavaString`:
  - `String.replace` for a non-empty target;
  - `String.split` on a one-character separator, with Java's trailing-empty-string rule;
  - `String.join`;
  - `String.compareTo`.

Everything the core borrows from Jenkins or from libraries is a parameter, bundled in `JobFinder.Environment`:

- the job registry, with impersonation as a boolean argument;
- the credential store;
- Gson parsing plus the JSON flattener;
- JsonPath (`read`, returning `None` when evaluation fails).

The regular-expression `find` of `isMatching` is also a parameter.

Three points where the code decides something a design reading could take the other way:

- **Lookup by full name checks no token.** `findJobWithFullName` keeps every named job that has a generic trigger, whatever token is given. Read as a design, it would instead be natural to require authorisation for every returned job. The model follows the code, and `JobFinder.FoundJobs` states the bypass as a property.
- **Configuring both a job token and a generic token denies every call.** In `authenticationTokenMatches` each disjunct needs at least one of the two secrets to be unconfigured. `JobFinder.AuthenticationTokenMatches` proves the deny.
- **The last disjunct of that decision never decides.** With no secret configured and no token given, all three disjuncts hold: the job-token check and the generic check each pass when neither side has a token. So the third disjunct, `noTokenGiven && noKindOfTokenConfigured`, never changes the outcome. `JobFinder.LastDisjunctIsRedundant` states this.

## Model

| member | source | states |
|---|---|---|
| `JobFinder.JobHasAuthToken` | src/main/java/org/jenkinsci/plugins/gwt/jobfinder/JobFinder.java:195-198 | A job has a legacy token exactly when the token object is present and its text is non-null and non-empty |
| `JobFinder.AuthenticationTokenMatchesGeneric` | src/main/java/org/jenkinsci/plugins/gwt/jobfinder/JobFinder.java:165-177 | The generic check passes exactly when the configured and given tokens agree once null and "" are identified: both absent, or both present and equal |
| `JobFinder.AuthenticationTokenMatchesJob` | src/main/java/org/jenkinsci/plugins/gwt/jobfinder/JobFinder.java:179-193 | The job-token check passes exactly when the job's secret and the given token agree once null and "" are identified |
| `JobFinder.AuthenticationTokenMatches` | src/main/java/org/jenkinsci/plugins/gwt/jobfinder/JobFinder.java:151-163 | Full decision table, by which secrets are configured. None: authorised exactly when no token is given. Only generic: authorised exactly when a non-empty given token equals it. Only job token: authorised exactly when a non-empty given token equals it. Both: denied whatever token is given |
| `JobFinder.LastDisjunctIsRedundant` | src/main/java/org/jenkinsci/plugins/gwt/jobfinder/JobFinder.java:154-161 | With no secret configured and no token given, the job-token check and the generic check both pass, so the third disjunct never decides |
| `JobFinder.DetermineTokenValue` | src/main/java/org/jenkinsci/plugins/gwt/jobfinder/JobFinder.java:115-149 | Without a credential id, the literal token. With one, the credential's secret when the store finds it, else the literal token |
| `JobFinder.TokenAccepted` | src/main/java/org/jenkinsci/plugins/gwt/jobfinder/JobFinder.java:98-104 | The scan's token check fails closed. A non-empty given token passes only when it equals the trigger's resolved token or the job token. A call without a token passes exactly when neither is configured. A secret found in the credential store replaces the trigger's literal token |
| `JobFinder.FirstGeneric` | src/main/java/org/jenkinsci/plugins/gwt/jobfinder/JobFinder.java:205-210 | Nothing exactly when no trigger is generic. Otherwise the returned trigger sits at some position before which no trigger is generic |
| `JobFinder.FindGenericTrigger` | src/main/java/org/jenkinsci/plugins/gwt/jobfinder/JobFinder.java:200-211 | A null trigger map yields nothing. Otherwise the result is the first generic trigger in iteration order |
| `JobFinder.KeepFound` | src/main/java/org/jenkinsci/plugins/gwt/jobfinder/JobFinder.java:95-110 | The scan loop returns no more jobs than it has candidates. With `JobFinder.KeepFoundAppend`, each candidate contributes at most one found job, in candidate order |
| `JobFinder.KeepFoundMembership` | src/main/java/org/jenkinsci/plugins/gwt/jobfinder/JobFinder.java:78-84 | Every found job is yielded by some candidate: same full name, that candidate's first generic trigger, accepted. Every candidate that yields a found job has it in the result |
| `JobFinder.KeepFoundAppend` | src/main/java/org/jenkinsci/plugins/gwt/jobfinder/JobFinder.java:95-110 | The scan keeps candidate order: the result for a concatenation of candidates is the concatenation of the results |
| `JobFinder.ScanCandidates` | src/main/java/org/jenkinsci/plugins/gwt/jobfinder/JobFinder.java:92-94 | The full scan lists all jobs, impersonating exactly when a non-empty token is given |
| `JobFinder.FindAllJobsWithTrigger` | src/main/java/org/jenkinsci/plugins/gwt/jobfinder/JobFinder.java:88-113 | Candidates come from a scan that is impersonated exactly when a token is given. The result is the shared scan loop over them with the token check, so by `KeepFoundMembership` it holds exactly the candidates with a generic trigger whose token check passes, and by `FullScanKeepsOrder` it keeps their order, at most one per candidate |
| `JobFinder.FullScanKeepsOrder` | src/main/java/org/jenkinsci/plugins/gwt/jobfinder/JobFinder.java:95-110 | Splitting the candidates around one job splits the scan result the same way, and that one job contributes at most one found job |
| `JobFinder.FullNameCandidates` | src/main/java/org/jenkinsci/plugins/gwt/jobfinder/JobFinder.java:62-76 | A null or empty payload gives no candidates. Otherwise the candidates are the registry's jobs for the in-order concatenation of every path item's render result over the flattened payload, impersonating exactly when a non-empty token is given |
| `JobFinder.FindJobWithFullName` | src/main/java/org/jenkinsci/plugins/gwt/jobfinder/JobFinder.java:62-86 | A null or empty payload yields nothing. Otherwise the result is the shared scan loop over the named candidates with no token check: exactly those with a generic trigger, in candidate order |
| `JobFinder.FoundJobs` | src/main/java/org/jenkinsci/plugins/gwt/jobfinder/JobFinder.java:43-54 | Disabled: the full scan. Enabled: the lookup by full name, unless it is empty, in which case the full scan. When enabled, every named job with a generic trigger is returned whatever token is given. Every returned job carries the first generic trigger of a candidate of that name. When disabled, that candidate's token check passed |
| `JobFinderConfig.NewConfig` | src/main/java/org/jenkinsci/plugins/gwt/global/JobFinderConfig.java:27-32 | The constructor's flag and path items read back through the getters |
| `JobFinderConfig.IsEnabled` | src/main/java/org/jenkinsci/plugins/gwt/global/JobFinderConfig.java:50-52 | isEnabled returns the stored flag: with the stored item list it rebuilds the configuration |
| `JobFinderConfig.GetPathItemList` | src/main/java/org/jenkinsci/plugins/gwt/global/JobFinderConfig.java:60-62 | The getter returns the stored item list: with the stored flag it rebuilds the configuration |
| `JobFinderConfig.SetEnabled` | src/main/java/org/jenkinsci/plugins/gwt/global/JobFinderConfig.java:45-52 | The flag reads back as set, and the path items are untouched |
| `JobFinderConfig.SetPathItemList` | src/main/java/org/jenkinsci/plugins/gwt/global/JobFinderConfig.java:54-62 | The path items read back as set, and the flag is untouched |
| `JobFinderConfig.GetFullNameList` | src/main/java/org/jenkinsci/plugins/gwt/global/JobFinderConfig.java:64-74 | No items yield no names. The names are the in-order concatenation of every item's render result. Their number is the sum of the per-item counts. No name holds a double quote |
| `JobFinderConfig.CollectFullNames` | src/main/java/org/jenkinsci/plugins/gwt/global/JobFinderConfig.java:66-72 | The loop over no items yields no names, and every name it collects is rendered by one of the items |
| `JobFinderConfig.SkippingEmptyResultsChangesNothing` | src/main/java/org/jenkinsci/plugins/gwt/global/JobFinderConfig.java:66-72 | The loop that skips empty render results returns what unconditional appending returns |
| `JobFinderConfig.AllRenderedLength` | src/main/java/org/jenkinsci/plugins/gwt/global/JobFinderConfig.java:71 | The number of collected names is the sum of the per-item render counts |
| `JobFinderConfig.AllRenderedHasNoQuote` | src/main/java/org/jenkinsci/plugins/gwt/global/JobFinderConfig.java:64-74 | No collected name contains a double quote |
| `JobFinderConfig.FullNamesComeFromItems` | src/main/java/org/jenkinsci/plugins/gwt/global/JobFinderConfig.java:66-72 | Every collected name is rendered by some item, and every name any item renders is collected |
| `Renderer.IsMatching` | src/main/java/org/jenkinsci/plugins/gwt/Renderer.java:25-47 | With no rendered text and no expression the filter matches. Otherwise it matches exactly when the regex find succeeds on the null-to-empty texts |
| `Renderer.CompareForResolveOrder` | src/main/java/org/jenkinsci/plugins/gwt/Renderer.java:84-91 | The comparator returns 0 exactly for equal names. Between names of different length, the longer comes first |
| `Renderer.ComparatorMeaning` | src/main/java/org/jenkinsci/plugins/gwt/Renderer.java:82-91 | The comparator puts a name first exactly when it is longer, or of equal length and lexicographically smaller. It returns 0 only for equal names |
| `Renderer.ComparatorAntisymmetric` | src/main/java/org/jenkinsci/plugins/gwt/Renderer.java:82-91 | Swapping the arguments negates the comparison |
| `Renderer.ComparatorTransitive` | src/main/java/org/jenkinsci/plugins/gwt/Renderer.java:82-91 | The comparator's non-positive relation is transitive, so it is a valid sort order |
| `Renderer.InsertInResolveOrder` | src/main/java/org/jenkinsci/plugins/gwt/Renderer.java:80-92 | Inserting a name into a list in resolve order keeps the order and adds exactly that name |
| `Renderer.GetVariablesInResolveOrder` | src/main/java/org/jenkinsci/plugins/gwt/Renderer.java:77-94 | The result is a permutation of the names. It is sorted longest first, with equal lengths in ascending compareTo order |
| `Renderer.FirstResolvesFirst` | src/main/java/org/jenkinsci/plugins/gwt/Renderer.java:80-92 | The first name of a list in resolve order comes no later than any name in it |
| `Renderer.SameFirstName` | src/main/java/org/jenkinsci/plugins/gwt/Renderer.java:80-92 | Two lists in resolve order with the same names begin with the same name |
| `Renderer.ResolveOrderIsUnique` | src/main/java/org/jenkinsci/plugins/gwt/Renderer.java:80-92 | A multiset of names has only one arrangement in resolve order |
| `Renderer.ResolveOrderIgnoresIterationOrder` | src/main/java/org/jenkinsci/plugins/gwt/Renderer.java:77-94 | The resolve order does not depend on the key set's iteration order |
| `Renderer.ReplaceKey` | src/main/java/org/jenkinsci/plugins/gwt/Renderer.java:65-75 | Text without the key is unchanged. Otherwise the text splits into key-free pieces that join back to it with the key and join to the result with the value, so no original occurrence survives |
| `Renderer.RenderText` | src/main/java/org/jenkinsci/plugins/gwt/Renderer.java:49-63 | A null or empty template renders to "". A non-empty template with no variables renders to itself. `Renderer.RenderSingleVariable` and `Renderer.BracedPlaceholderRenders` state what a variable does to it |
| `Renderer.SubstituteVariables` | src/main/java/org/jenkinsci/plugins/gwt/Renderer.java:56-61 | The substitution loop leaves text without a `$` unchanged, since every placeholder starts with `$`. Its two steps per name are stated by `Renderer.RenderSingleVariable` |
| `Renderer.RenderTextIgnoresIterationOrder` | src/main/java/org/jenkinsci/plugins/gwt/Renderer.java:49-63 | Two maps with distinct keys and the same entries in a different iteration order render every template alike |
| `Renderer.RenderTextWithoutPlaceholders` | src/main/java/org/jenkinsci/plugins/gwt/Renderer.java:49-63 | A non-empty template without `$` renders to itself whatever the variables |
| `Renderer.LongerNameResolvesFirst` | src/main/java/org/jenkinsci/plugins/gwt/Renderer.java:78-94 | Of `id` and `id_long`, `id_long` is resolved first |
| `Renderer.RenderSingleVariable` | src/main/java/org/jenkinsci/plugins/gwt/Renderer.java:55-62 | With one variable, a non-empty template has every `$name` and then every `${name}` replaced by the value |
| `Renderer.BareKeyAbsent` | src/main/java/org/jenkinsci/plugins/gwt/Renderer.java:57-58 | In text whose only `$` opens `${name}`, the bare key `$name` does not occur when the name does not start with a brace |
| `Renderer.BracedPlaceholderRenders` | src/main/java/org/jenkinsci/plugins/gwt/Renderer.java:57-60 | A `${name}` placeholder between text without `$` renders to the variable's value, the text around it unchanged |
| `Renderer.RenderBracedAndBare` | src/main/java/org/jenkinsci/plugins/gwt/Renderer.java:55-62 | With `id`=1, `${id}-$id` renders to `1-1`: both placeholder forms are substituted |
| `Renderer.RenderTextLongerNameFirst` | src/main/java/org/jenkinsci/plugins/gwt/Renderer.java:55-62 | With `id`=1 and `id_long`=2, `$id_long-$id` renders to `2-1` |
| `Renderer.ContentText` | src/main/java/org/jenkinsci/plugins/gwt/Renderer.java:114-118 | A string read from the payload is used as it is. Any other value is replaced by its JSON serialization |
| `Renderer.IsExpressionMeaning` | src/main/java/org/jenkinsci/plugins/gwt/Renderer.java:109 | A field is an expression exactly when its first two characters are `$` and `{` |
| `Renderer.ExpressionOfMeaning` | src/main/java/org/jenkinsci/plugins/gwt/Renderer.java:111-112 | The expression of a field holds no `}`. A field with neither `${` nor `}` is its own expression |
| `Renderer.ResolveField` | src/main/java/org/jenkinsci/plugins/gwt/Renderer.java:109-121 | A field resolves unless it is an expression the read misses. An expression gives its read text, any other field itself |
| `Renderer.ResolveFields` | src/main/java/org/jenkinsci/plugins/gwt/Renderer.java:107-122 | Resolution succeeds exactly when every expression field is found. It yields one value per field: expression fields give their read text, other fields appear verbatim and in order |
| `Renderer.ResolveFullName` | src/main/java/org/jenkinsci/plugins/gwt/Renderer.java:104-125 | An entry yields a name exactly when all its fields resolve. The name is the resolved fields with their double quotes removed, joined by `/`, so it contains no double quote |
| `Renderer.Unquote` | src/main/java/org/jenkinsci/plugins/gwt/Renderer.java:124 | One field per field, each the original with every double quote removed |
| `Renderer.UnquoteJoin` | src/main/java/org/jenkinsci/plugins/gwt/Renderer.java:123-124 | Removing the quotes after joining with `/` equals joining the unquoted fields, because `/` holds no quote |
| `Renderer.RenderEntries` | src/main/java/org/jenkinsci/plugins/gwt/Renderer.java:102-131 | At most one name per entry, none containing a double quote |
| `Renderer.Render` | src/main/java/org/jenkinsci/plugins/gwt/Renderer.java:96-133 | A null or empty path yields no names. Otherwise the names are those of `Renderer.RenderEntries`, at most one per map entry, none containing a double quote |
| `Renderer.RenderEntryInPlace` | src/main/java/org/jenkinsci/plugins/gwt/Renderer.java:102-131 | For a non-empty path, each map entry contributes exactly its own resolved name, or nothing on a miss, between the names of the entries before and after it |
| `Renderer.RenderEntriesAppend` | src/main/java/org/jenkinsci/plugins/gwt/Renderer.java:102-131 | Entries are rendered independently and in order: the names for a concatenation of entries are the concatenation of the names |
| `Renderer.EntryContributesAtMostItsName` | src/main/java/org/jenkinsci/plugins/gwt/Renderer.java:113-130 | An entry contributes its own resolved name, or nothing on a miss, and the surrounding entries are still processed |
| `Renderer.ExpressionOfWrapped` | src/main/java/org/jenkinsci/plugins/gwt/Renderer.java:109-112 | A field `${e}` (e without braces) is an expression field, and its expression is e |
| `Renderer.LiteralThenExpressionFields` | src/main/java/org/jenkinsci/plugins/gwt/Renderer.java:107 | `literal/${e}` splits into exactly the two fields |
| `Renderer.RenderLiteralThenExpression` | src/main/java/org/jenkinsci/plugins/gwt/Renderer.java:96-133 | With one entry whose read of e gives a string value, `literal/${e}` renders to exactly `literal/value` |
| `Renderer.RenderLiteralThenMissingExpression` | src/main/java/org/jenkinsci/plugins/gwt/Renderer.java:113-130 | With one entry whose read of e misses, `literal/${e}` renders to no name at all, not a partial path |
| `JavaString.Replace` | src/main/java/org/jenkinsci/plugins/gwt/Renderer.java:68-70 | String.replace leaves text without the target unchanged |
| `JavaString.IsNullOrEmpty` | src/main/java/org/jenkinsci/plugins/gwt/Renderer.java:29 | Guava isNullOrEmpty is true exactly when nullToEmpty gives "" |
| `JavaString.NullToEmpty` | src/main/java/org/jenkinsci/plugins/gwt/Renderer.java:34-35 | Guava nullToEmpty turns null into "" and keeps any other string |
| `JavaString.Join` | src/main/java/org/jenkinsci/plugins/gwt/Renderer.java:123 | String.join of no parts is "", and otherwise the result begins with the first part. `JavaString.JoinSplitsBack` and `JavaString.SplitInvertsJoin` show that it is undone by split |
| `JavaString.JoinSplitsBack` | src/main/java/org/jenkinsci/plugins/gwt/Renderer.java:107-123 | Separator-free parts joined with the separator split back, empty fields included, into exactly those parts |
| `JavaString.SplitInvertsJoin` | src/main/java/org/jenkinsci/plugins/gwt/Renderer.java:107-123 | split undoes join for separator-free parts when the last part is non-empty or the only one |
| `JavaString.SplitJoinsBack` | src/main/java/org/jenkinsci/plugins/gwt/Renderer.java:107 | split loses only trailing separators: the text is the join of its fields followed by separators alone |
| `JavaString.ReplaceJoinsPieces` | src/main/java/org/jenkinsci/plugins/gwt/Renderer.java:68-70 | Replacing puts the replacement between the pieces of text that lie between occurrences |
| `JavaString.PiecesJoinBack` | src/main/java/org/jenkinsci/plugins/gwt/Renderer.java:68-70 | Joining the pieces with the target restores the original text, so nothing but occurrences is replaced |
| `JavaString.PiecesAreTargetFree` | src/main/java/org/jenkinsci/plugins/gwt/Renderer.java:68-70 | No piece contains the target, so every occurrence is replaced |
| `JavaString.ReplaceSkipsPrefix` | src/main/java/org/jenkinsci/plugins/gwt/Renderer.java:68-70 | A prefix in which the target cannot start is copied unchanged by `String.replace` |
| `JavaString.ReplaceRemovesChar` | src/main/java/org/jenkinsci/plugins/gwt/Renderer.java:124 | Removing every occurrence of one character leaves none of it |
| `JavaString.Split` | src/main/java/org/jenkinsci/plugins/gwt/Renderer.java:107 | No field contains the separator. Text without the separator is its own single field. Text with it never ends in an empty field, as `split` drops trailing empty strings. `JavaString.SplitJoinsBack` shows the fields rebuild the text up to trailing separators |
| `JavaString.SplitAllJoinsBack` | src/main/java/org/jenkinsci/plugins/gwt/Renderer.java:107 | Before trailing empty fields are dropped, the fields join back to the path |
| `JavaString.DropTrailingEmpty` | src/main/java/org/jenkinsci/plugins/gwt/Renderer.java:107 | The kept fields are a prefix ending in a non-empty field, and only empty fields are dropped |
| `JavaString.CompareTo` | src/main/java/org/jenkinsci/plugins/gwt/Renderer.java:86 | When one string is a prefix of the other, compareTo is the difference of the lengths |
| `JavaString.CompareToFirstDifference` | src/main/java/org/jenkinsci/plugins/gwt/Renderer.java:86 | At the first index where two strings differ, compareTo is the difference of the characters there |
| `JavaString.CompareToZeroIffEqual` | src/main/java/org/jenkinsci/plugins/gwt/Renderer.java:86 | compareTo is 0 exactly for equal strings |
| `JavaString.CompareToAntisymmetric` | src/main/java/org/jenkinsci/plugins/gwt/Renderer.java:86 | Swapping the arguments of compareTo negates it |
| `JavaString.CompareToTransitive` | src/main/java/org/jenkinsci/plugins/gwt/Renderer.java:86 | compareTo's non-positive relation is transitive |
| `JavaString.CompareToIsLexicographic` | src/main/java/org/jenkinsci/plugins/gwt/Renderer.java:86 | compareTo is negative exactly when the first string comes first in code-unit lexicographic order |
| `JavaMap.Keys` | src/main/java/org/jenkinsci/plugins/gwt/Renderer.java:55 | keySet lists one key per entry, the key of the entry at the same position |
| `JavaMap.Get` | src/main/java/org/jenkinsci/plugins/gwt/Renderer.java:58-60 | get finds a value exactly for a key of the map, and the pair is an entry of the map |
| `JavaMap.GetFindsEntry` | src/main/java/org/jenkinsci/plugins/gwt/Renderer.java:58-60 | In a map with distinct keys, get returns the value stored with the key |
| `JavaMap.KeysOfPermutation` | src/main/java/org/jenkinsci/plugins/gwt/Renderer.java:55 | Maps with the same entries in another order have the same keys, as a multiset |

## Left out

- Gson parsing of the payload and the JSON flattener (`JobFinder.java:56-60,68-73`) are a parameter, `Environment.flatten`. A payload that is not a JSON object makes Gson throw, and that exception is not modelled.
- JsonPath evaluation and Gson `toJson` (`Renderer.java:113-117`) are a parameter, `read`, returning `JsonString` or the serialized `JsonOther`. `PathNotFoundException` and every other exception caught at lines 126-130 become `None`.
- `FlattenerUtils.filter` is not part of this model. It is taken to delete every match of its pattern, so an expression field loses every `${` and every `}`.
- Regular expressions are not modelled. The general `find` of `isMatching` is the parameter `find`, and the exception for a malformed pattern is not modelled. The `^\$\{` test of `render` is stated directly as "starts with `${`". `"\\/"` in `split` matches exactly `/`.
- The job registry, impersonation, `getTriggers`, the credential store (`CredentialsHelper`), and `GlobalConfiguration` load/save/configure are Jenkins services. They appear only as the functions of `Environment`. The config is passed explicitly instead of through the `JobFinderConfig.get()` singleton.
- Supplementary characters are not represented: a Dafny `char` is a Unicode scalar value, so a surrogate pair counts as one character and an unpaired surrogate cannot occur. `length()`, `compareTo` (and so `CompareForResolveOrder`) agree with Java only for text in the Basic Multilingual Plane.
- Logging, including the warning when both a literal token and a credential id are set, is left out.
- JobFinder.AuthenticationTokenMatchesGeneric: `MessageDigest.isEqual` on UTF-8 bytes is modelled as string equality. Its constant-time behaviour cannot be stated here. An unpaired surrogate, which UTF-8 encoding replaces by `?`, can make two different strings byte-equal, and that case is not modelled.
- JobFinder.AuthenticationTokenMatchesJob: the same byte-comparison simplification as the generic check.
- JavaString.Replace: the empty-target branch of `String.replace` is excluded by its requires. `replaceKey` is only called with keys starting with `$`.
- Null map values, null path items and null lists, all of which make the Java code throw a `NullPointerException`, are not modelled. Map values and lists are always present. A null path is modelled and renders to no names.
- `replaceKey` rethrows an `IllegalArgumentException` (`Renderer.java:71-73`), but `String.replace` with literal arguments never throws one, so that path is dead and is not modelled.

=== FILE: java_map.dfy ===
/** A java.util.Map<String, String> seen through its entry set: the entries in
    the map's iteration order. Keys of a Java map are distinct. */
module JavaMap {
  import opened Wrappers

  type StringMap = seq<(string, string)>

  /** keySet(), in iteration order */
  function Keys(m: StringMap): (ks: seq<string>)
    ensures |ks| == |m|
    ensures forall i | 0 <= i < |m| :: ks[i] == m[i].0
  {
    if |m| == 0 then [] else [m[0].0] + Keys(m[1..])
  }

  /** get(key): the value stored under key, None when absent */
  function Get(m: StringMap, key: string): (r: Option<string>)
    ensures r.Some? <==> key in Keys(m)
    ensures r.Some? ==> (key, r.value) in m
  {
    if |m| == 0 then None
    else if m[0].0 == key then Some(m[0].1)
    else Get(m[1..], key)
  }

  /** Every Java map has distinct keys. */
  predicate DistinctKeys(m: StringMap) {
    forall i, j | 0 <= i < j < |m| :: m[i].0 != m[j].0
  }

  /** In a map with distinct keys, get returns the value stored with the key. */
  lemma GetFindsEntry(m: StringMap, key: string, value: string)
    requires DistinctKeys(m) && (key, value) in m
    ensures Get(m, key) == Some(value)
  {
  }

  /** The key list of a concatenation is the concatenation of the key lists. */
  lemma KeysAppend(a: StringMap, b: StringMap)
    ensures Keys(a + b) == Keys(a) + Keys(b)
  {
    assert forall i | 0 <= i < |a + b| :: Keys(a + b)[i] == (Keys(a) + Keys(b))[i];
  }

  /** A sequence is what comes before position j, the element at j, and what comes after. */
  lemma SplitAround<T>(b: seq<T>, j: nat)
    requires j < |b|
    ensures b == b[..j] + [b[j]] + b[j + 1..]
  {
  }

  /** Permutations with the same first element have permuted tails. */
  lemma TailsArePermutations<T>(a: seq<T>, b: seq<T>)
    requires |a| > 0 && |b| > 0 && a[0] == b[0] && multiset(a) == multiset(b)
    ensures multiset(a[1..]) == multiset(b[1..])
  {
    assert a == [a[0]] + a[1..];
    assert b == [b[0]] + b[1..];
    assert multiset(a[1..]) == multiset(a) - multiset{a[0]};
    assert multiset(b[1..]) == multiset(b) - multiset{b[0]};
  }

  /** Removing the entry at j removes one copy of it. */
  lemma RemoveAtMultiset<T>(b: seq<T>, j: nat)
    requires j < |b|
    ensures multiset(b[..j] + b[j + 1..]) == multiset(b) - multiset{b[j]}
  {
    SplitAround(b, j);
  }

  /** Removing the entry at j removes one copy of its key. */
  lemma KeysRemoveAt(b: StringMap, j: nat)
    requires j < |b|
    ensures multiset(Keys(b)) == multiset(Keys(b[..j] + b[j + 1..])) + multiset{b[j].0}
  {
    var x, e, y := b[..j], [b[j]], b[j + 1..];
    SplitAround(b, j);
    KeysAppend(x + e, y);
    KeysAppend(x, e);
    KeysAppend(x, y);
    assert Keys(e) == [b[j].0];
    assert Keys(b) == Keys(x) + [b[j].0] + Keys(y);
    assert Keys(x + y) == Keys(x) + Keys(y);
  }

  /** Taking a matching entry out of two permutations leaves permutations. */
  lemma RemoveMatching(a: StringMap, b: StringMap, j: nat)
    requires 0 < |a| && j < |b| && b[j] == a[0] && multiset(a) == multiset(b)
    ensures multiset(a[1..]) == multiset(b[..j] + b[j + 1..])
  {
    assert a[..0] + a[1..] == a[1..];
    RemoveAtMultiset(a, 0);
    RemoveAtMultiset(b, j);
  }

  /** Putting a matching entry back adds the same key to both key multisets. */
  lemma KeysAddMatching(a: StringMap, b: StringMap, j: nat)
    requires 0 < |a| && j < |b| && b[j] == a[0]
    requires multiset(Keys(a[1..])) == multiset(Keys(b[..j] + b[j + 1..]))
    ensures multiset(Keys(a)) == multiset(Keys(b))
  {
    KeysRemoveAt(b, j);
    KeysRemoveAt(a, 0);
    assert a[..0] + a[1..] == a[1..];
  }

  /** Reordering the entries reorders the keys: the key multisets agree. */
  lemma {:induction false} KeysOfPermutation(a: StringMap, b: StringMap)
    requires multiset(a) == multiset(b)
    ensures multiset(Keys(a)) == multiset(Keys(b))
    decreases |a|
  {
    if |a| == 0 {
      assert |b| == |multiset(b)| == 0;
    } else {
      assert a[0] in multiset(b);
      var j :| 0 <= j < |b| && b[j] == a[0];
      RemoveMatching(a, b, j);
      KeysOfPermutation(a[1..], b[..j] + b[j + 1..]);
      KeysAddMatching(a, b, j);
    }
  }
}

=== FILE: java_string.dfy ===
/** The parts of java.lang.String and Guava's Strings that the job finder relies on.
    A Java String reference is an Option<string> (None is null). A Dafny char is a
    Unicode scalar value, not a UTF-16 code unit: |s| is Java's length() and
    character comparison is Java's only for text in the Basic Multilingual Plane. */
module JavaString {
  import opened Wrappers

  /** Guava Strings.isNullOrEmpty: true exactly when nullToEmpty gives "". */
  function IsNullOrEmpty(s: Option<string>): (r: bool)
    ensures r <==> NullToEmpty(s) == ""
  {
    s.None? || |s.value| == 0
  }

  /** Guava Strings.nullToEmpty: null becomes "", any other string is kept. */
  function NullToEmpty(s: Option<string>): (r: string)
    ensures s.None? ==> r == ""
    ensures s.Some? ==> r == s.value
  {
    s.GetOr("")
  }

  /** The configured value of a string setting: None when null or empty. */
  function NonEmpty(s: Option<string>): (r: Option<string>)
    ensures r.None? <==> IsNullOrEmpty(s)
    ensures r.Some? ==> r == s
  {
    if IsNullOrEmpty(s) then None else s
  }

  /** `key` occurs in `s` starting at index i */
  predicate OccursAt(s: string, key: string, i: int) {
    0 <= i && i + |key| <= |s| && s[i..i + |key|] == key
  }

  /** String.contains */
  predicate Contains(s: string, key: string) {
    exists i | 0 <= i <= |s| :: OccursAt(s, key, i)
  }

  predicate StartsWith(s: string, prefix: string) {
    |prefix| <= |s| && s[..|prefix|] == prefix
  }

  // ---------------------------------------------------------------------------
  // String.replace(CharSequence, CharSequence)
  // ---------------------------------------------------------------------------

  /** String.replace for a non-empty target: every occurrence, scanning left to
      right, non-overlapping, literal (no pattern and no replacement syntax). */
  function Replace(s: string, target: string, replacement: string): (r: string)
    requires |target| > 0
    ensures !Contains(s, target) ==> r == s
    decreases |s|
  {
    if |s| < |target| then s
    else if StartsWith(s, target) then
      assert OccursAt(s, target, 0);
      replacement + Replace(s[|target|..], target, replacement)
    else
      ShiftedOccurrence(s, target);
      [s[0]] + Replace(s[1..], target, replacement)
  }

  /** An occurrence in the tail of s is an occurrence in s, one position later. */
  lemma ShiftedOccurrence(s: string, key: string)
    requires |s| > 0
    ensures Contains(s[1..], key) ==> Contains(s, key)
  {
    if Contains(s[1..], key) {
      var i :| 0 <= i <= |s[1..]| && OccursAt(s[1..], key, i);
      assert s[1..][i..i + |key|] == s[i + 1..i + 1 + |key|];
      assert OccursAt(s, key, i + 1);
    }
  }

  /** One step of Replace at an occurrence of the target. */
  lemma ReplaceAtOccurrence(s: string, target: string, replacement: string)
    requires |target| > 0 && StartsWith(s, target)
    ensures Replace(s, target, replacement) == replacement + Replace(s[|target|..], target, replacement)
  {
  }

  /** One step of Replace past a character where the target does not start. */
  lemma ReplacePastCharacter(s: string, target: string, replacement: string)
    requires |target| > 0 && |s| > 0 && !StartsWith(s, target)
    ensures Replace(s, target, replacement) == [s[0]] + Replace(s[1..], target, replacement)
  {
  }

  /** Replace is the identity on text that has no occurrence of the target. */
  lemma ReplaceWithoutOccurrence(s: string, target: string, replacement: string)
    requires |target| > 0 && !Contains(s, target)
    ensures Replace(s, target, replacement) == s
  {
  }

  /** A prefix in which the target cannot start is copied unchanged. */
  lemma {:induction false} ReplaceSkipsPrefix(prefix: string, rest: string, target: string, replacement: string)
    requires |target| > 0 && target[0] !in prefix
    ensures Replace(prefix + rest, target, replacement) == prefix + Replace(rest, target, replacement)
    decreases |prefix|
  {
    if |prefix| == 0 {
      assert prefix + rest == rest;
    } else {
      var s := prefix + rest;
      assert s[0] == prefix[0];
      ReplacePastCharacter(s, target, replacement);
      assert s[1..] == prefix[1..] + rest;
      ReplaceSkipsPrefix(prefix[1..], rest, target, replacement);
      ConcatAssociative([prefix[0]], prefix[1..], Replace(rest, target, replacement));
      assert [prefix[0]] + prefix[1..] == prefix;
    }
  }

  /** String.join(sep, parts): no parts give "", otherwise the text begins with
      the first part. */
  function Join(parts: seq<string>, sep: string): (r: string)
    ensures |parts| == 0 ==> r == ""
    ensures |parts| > 0 ==> StartsWith(r, parts[0])
    decreases |parts|
  {
    if |parts| == 0 then ""
    else if |parts| == 1 then parts[0]
    else parts[0] + sep + Join(parts[1..], sep)
  }

  /** The text between the occurrences of `target` that Replace finds: Replace
      keeps these pieces and puts the replacement between them. */
  function Pieces(s: string, target: string): (ps: seq<string>)
    requires |target| > 0
    ensures |ps| > 0
    decreases |s|
  {
    if |s| < |target| then [s]
    else if StartsWith(s, target) then [""] + Pieces(s[|target|..], target)
    else
      var rest := Pieces(s[1..], target);
      [[s[0]] + rest[0]] + rest[1..]
  }

  lemma JoinConsHead(c: char, ps: seq<string>, sep: string)
    requires |ps| > 0
    ensures Join([[c] + ps[0]] + ps[1..], sep) == [c] + Join(ps, sep)
  {
    var qs := [[c] + ps[0]] + ps[1..];
    assert qs[1..] == ps[1..];
  }

  /** Replace puts the replacement between the pieces: the replacement itself
      is never rescanned. */
  lemma {:induction false} ReplaceJoinsPieces(s: string, target: string, replacement: string)
    requires |target| > 0
    ensures Replace(s, target, replacement) == Join(Pieces(s, target), replacement)
    decreases |s|
  {
    if |s| < |target| {
    } else if StartsWith(s, target) {
      ReplaceJoinsPieces(s[|target|..], target, replacement);
      var rest := Pieces(s[|target|..], target);
      assert ([""] + rest)[1..] == rest;
    } else {
      ReplaceJoinsPieces(s[1..], target, replacement);
      JoinConsHead(s[0], Pieces(s[1..], target), replacement);
    }
  }

  /** Joining the pieces with the target gives back the original text. */
  lemma {:induction false} PiecesJoinBack(s: string, target: string)
    requires |target| > 0
    ensures Join(Pieces(s, target), target) == s
    decreases |s|
  {
    if |s| < |target| {
    } else if StartsWith(s, target) {
      var tail := s[|target|..];
      PiecesJoinBack(tail, target);
      var rest := Pieces(tail, target);
      var ps := [""] + rest;
      assert ps[1..] == rest;
      calc {
        Join(ps, target);
        ps[0] + target + Join(ps[1..], target);
        target + tail;
        { assert s == s[..|target|] + tail; }
        s;
      }
    } else {
      PiecesJoinBack(s[1..], target);
      JoinConsHead(s[0], Pieces(s[1..], target), target);
      assert s == [s[0]] + s[1..];
    }
  }

  /** No piece contains the target: every occurrence of the target in the
      original text lies across a boundary between pieces. */
  lemma {:induction false} PiecesAreTargetFree(s: string, target: string)
    requires |target| > 0
    ensures forall p | p in Pieces(s, target) :: !Contains(p, target)
    decreases |s|
  {
    if |s| < |target| {
      forall i | 0 <= i <= |s| ensures !OccursAt(s, target, i) { }
    } else if StartsWith(s, target) {
      PiecesAreTargetFree(s[|target|..], target);
      forall i | 0 <= i <= 0 ensures !OccursAt("", target, i) { }
    } else {
      var rest := Pieces(s[1..], target);
      PiecesAreTargetFree(s[1..], target);
      assert rest[0] in rest;
      PiecesJoinBack(s[1..], target);
      ExtendedPrefixTargetFree(s, target, rest[0]);
      forall p | p in [[s[0]] + rest[0]] + rest[1..] ensures !Contains(p, target) {
        if p != [s[0]] + rest[0] {
          assert p in rest;
        }
      }
    }
  }

  /** Where the target does not start, a target-free prefix of the tail stays
      target-free when extended by the first character. */
  lemma ExtendedPrefixTargetFree(s: string, target: string, first: string)
    requires |target| > 0 && |s| > 0 && !StartsWith(s, target)
    requires StartsWith(s[1..], first) && !Contains(first, target)
    ensures !Contains([s[0]] + first, target)
  {
    var h := [s[0]] + first;
    assert h == s[..|h|];
    assert h[1..] == first;
    forall i | 0 <= i <= |h| ensures !OccursAt(h, target, i) {
      if i == 0 {
        if |target| <= |h| {
          assert h[..|target|] == s[..|target|];
        }
      } else if i + |target| <= |h| {
        assert h[i..i + |target|] == first[i - 1..i - 1 + |target|];
        assert !OccursAt(first, target, i - 1);
      }
    }
  }

  /** Removing every occurrence of a single character leaves none of it. */
  lemma {:induction false} ReplaceRemovesChar(s: string, c: char)
    ensures c !in Replace(s, [c], "")
    decreases |s|
  {
    if |s| < 1 {
    } else if StartsWith(s, [c]) {
      ReplaceRemovesChar(s[1..], c);
    } else {
      ReplaceRemovesChar(s[1..], c);
      assert s[0] != c;
    }
  }

  /** A key holding a character that is absent from the text does not occur in it. */
  lemma AbsentCharMeansAbsent(s: string, key: string, k: nat)
    requires k < |key| && key[k] !in s
    ensures !Contains(s, key)
  {
    forall i | 0 <= i <= |s| ensures !OccursAt(s, key, i) {
      if i + |key| <= |s| {
        assert s[i..i + |key|][k] == s[i + k];
      }
    }
  }

  /** Replacing a character the text does not hold changes nothing. */
  lemma ReplaceAbsentChar(s: string, c: char, replacement: string)
    ensures c !in s ==> Replace(s, [c], replacement) == s
  {
  }

  /** Concatenation is associative. */
  lemma ConcatAssociative<T>(a: seq<T>, b: seq<T>, c: seq<T>)
    ensures a + b + c == a + (b + c)
  {
  }

  /** Replacing a one-character target handles the first character, then the rest. */
  lemma ReplaceCharStep(s: string, c: char, replacement: string)
    requires |s| > 0
    ensures Replace(s, [c], replacement)
            == (if s[0] == c then replacement else [s[0]]) + Replace(s[1..], [c], replacement)
  {
  }

  /** Replacing a one-character target works piecewise on a concatenation. */
  lemma {:induction false} ReplaceCharDistributes(a: string, b: string, c: char, replacement: string)
    ensures Replace(a + b, [c], replacement) == Replace(a, [c], replacement) + Replace(b, [c], replacement)
    decreases |a|
  {
    if |a| == 0 {
      assert a + b == b;
    } else {
      var head := if a[0] == c then replacement else [a[0]];
      ReplaceCharStep(a + b, c, replacement);
      ReplaceCharStep(a, c, replacement);
      assert (a + b)[1..] == a[1..] + b;
      ReplaceCharDistributes(a[1..], b, c, replacement);
      ConcatAssociative(head, Replace(a[1..], [c], replacement), Replace(b, [c], replacement));
    }
  }

  // ---------------------------------------------------------------------------
  // String.split on a one-character literal, limit 0
  // ---------------------------------------------------------------------------

  /** Every part between occurrences of sep, empty parts included. */
  function SplitAll(s: string, sep: char): (parts: seq<string>)
    ensures |parts| > 0
    decreases |s|
  {
    if |s| == 0 then [""]
    else
      var rest := SplitAll(s[1..], sep);
      if s[0] == sep then [""] + rest
      else [[s[0]] + rest[0]] + rest[1..]
  }

  /** Removes the empty strings at the end, as split with limit 0 does. */
  function DropTrailingEmpty(parts: seq<string>): (r: seq<string>)
    ensures |r| <= |parts| && r == parts[..|r|]
    ensures |r| > 0 ==> r[|r| - 1] != ""
    ensures forall i | |r| <= i < |parts| :: parts[i] == ""
    decreases |parts|
  {
    if |parts| == 0 then []
    else if parts[|parts| - 1] == "" then DropTrailingEmpty(parts[..|parts| - 1])
    else parts
  }

  /** String.split(regex) where regex matches exactly the one character sep:
      with no occurrence the whole string is the only part; otherwise the
      parts between occurrences, with the trailing empty parts dropped. */
  function Split(s: string, sep: char): (parts: seq<string>)
    ensures forall p | p in parts :: sep !in p
    ensures sep !in s ==> parts == [s]
    ensures sep in s ==> |parts| == 0 || parts[|parts| - 1] != ""
  {
    SplitAllHasNoSeparator(s, sep);
    if sep !in s then [s] else DropTrailingEmpty(SplitAll(s, sep))
  }

  /** No part of SplitAll contains the separator. */
  lemma {:induction false} SplitAllHasNoSeparator(s: string, sep: char)
    ensures forall p | p in SplitAll(s, sep) :: sep !in p
    decreases |s|
  {
    if |s| > 0 {
      SplitAllHasNoSeparator(s[1..], sep);
      var rest := SplitAll(s[1..], sep);
      if s[0] != sep {
        assert rest[0] in rest;
        forall p | p in [[s[0]] + rest[0]] + rest[1..] ensures sep !in p {
          if p != [s[0]] + rest[0] {
            assert p in rest;
          }
        }
      }
    }
  }

  /** SplitAll of a separator-free part, the separator, and the rest. */
  lemma {:induction false} SplitAllAtSeparator(part: string, sep: char, rest: string)
    requires sep !in part
    ensures SplitAll(part + [sep] + rest, sep) == [part] + SplitAll(rest, sep)
    decreases |part|
  {
    var s := part + [sep] + rest;
    if |part| == 0 {
      assert s == [sep] + rest;
      assert s[1..] == rest;
    } else {
      assert s[1..] == part[1..] + [sep] + rest;
      SplitAllAtSeparator(part[1..], sep, rest);
      assert [part[0]] + part[1..] == part;
    }
  }

  /** SplitAll of separator-free text is that text alone. */
  lemma {:induction false} SplitAllWithoutSeparator(s: string, sep: char)
    requires sep !in s
    ensures SplitAll(s, sep) == [s]
    decreases |s|
  {
    if |s| > 0 {
      SplitAllWithoutSeparator(s[1..], sep);
      assert [s[0]] + s[1..] == s;
    }
  }

  /** SplitAll loses nothing: joining its parts with sep gives back s. */
  lemma {:induction false} SplitAllJoinsBack(s: string, sep: char)
    ensures Join(SplitAll(s, sep), [sep]) == s
    decreases |s|
  {
    if |s| > 0 {
      SplitAllJoinsBack(s[1..], sep);
      var rest := SplitAll(s[1..], sep);
      if s[0] == sep {
        assert ([""] + rest)[1..] == rest;
      } else {
        JoinConsHead(s[0], rest, [sep]);
      }
      assert s == [s[0]] + s[1..];
    }
  }

  /** SplitAll inverts Join: separator-free parts joined with sep split back
      into exactly those parts, empty ones included. */
  lemma {:induction false} JoinSplitsBack(parts: seq<string>, sep: char)
    requires |parts| > 0
    requires forall p | p in parts :: sep !in p
    ensures SplitAll(Join(parts, [sep]), sep) == parts
    decreases |parts|
  {
    if |parts| == 1 {
      SplitAllWithoutSeparator(parts[0], sep);
    } else {
      assert parts[0] in parts;
      assert forall p | p in parts[1..] :: p in parts;
      JoinSplitsBack(parts[1..], sep);
      SplitAllAtSeparator(parts[0], sep, Join(parts[1..], [sep]));
      assert [parts[0]] + parts[1..] == parts;
    }
  }

  /** Split inverts Join when the last part is not empty (split with limit 0
      would drop it) or is the only part. */
  lemma SplitInvertsJoin(parts: seq<string>, sep: char)
    requires |parts| > 0
    requires forall p | p in parts :: sep !in p
    requires |parts| == 1 || parts[|parts| - 1] != ""
    ensures Split(Join(parts, [sep]), sep) == parts
  {
    var s := Join(parts, [sep]);
    if |parts| == 1 {
      assert parts[0] in parts;
    } else {
      assert s[|parts[0]|] == sep;
      JoinSplitsBack(parts, sep);
    }
  }

  /** Joining one more part on the right. */
  lemma {:induction false} JoinSnoc(parts: seq<string>, last: string, sep: string)
    requires |parts| > 0
    ensures Join(parts + [last], sep) == Join(parts, sep) + sep + last
    decreases |parts|
  {
    if |parts| > 1 {
      assert (parts + [last])[1..] == parts[1..] + [last];
      JoinSnoc(parts[1..], last, sep);
    }
  }

  /** Empty parts after the first n add only separators to the join. */
  lemma {:induction false} JoinTrailingEmpty(parts: seq<string>, n: nat, sep: char)
    requires n <= |parts|
    requires forall i | n <= i < |parts| :: parts[i] == ""
    ensures var head := Join(parts[..n], [sep]);
            var full := Join(parts, [sep]);
            && |head| <= |full| && full[..|head|] == head
            && forall i | |head| <= i < |full| :: full[i] == sep
    decreases |parts|
  {
    if n < |parts| {
      var init := parts[..|parts| - 1];
      assert init[..n] == parts[..n];
      JoinTrailingEmpty(init, n, sep);
      if |init| > 0 {
        assert init + [""] == parts;
        JoinSnoc(init, "", [sep]);
      }
    } else {
      assert parts[..n] == parts;
    }
  }

  /** Split loses only trailing separators: s is the join of its parts
      followed by nothing but sep. */
  lemma SplitJoinsBack(s: string, sep: char)
    ensures var joined := Join(Split(s, sep), [sep]);
            && |joined| <= |s| && s[..|joined|] == joined
            && forall i | |joined| <= i < |s| :: s[i] == sep
  {
    if sep in s {
      var parts := SplitAll(s, sep);
      SplitAllJoinsBack(s, sep);
      var kept := DropTrailingEmpty(parts);
      JoinTrailingEmpty(parts, |kept|, sep);
    }
  }

  // ---------------------------------------------------------------------------
  // String.compareTo
  // ---------------------------------------------------------------------------

  /** String.compareTo: at the first index where the strings differ, the
      difference of the characters there; when one is a prefix of the other,
      the difference of the lengths. */
  function CompareTo(a: string, b: string): (r: int)
    ensures StartsWith(a, b) || StartsWith(b, a) ==> r == |a| - |b|
    decreases |a|
  {
    if |a| == 0 || |b| == 0 then |a| - |b|
    else if a[0] != b[0] then a[0] as int - b[0] as int
    else CompareTo(a[1..], b[1..])
  }

  /** Lexicographic order on characters, stated without recursion: a proper
      prefix comes first, otherwise the first differing unit decides. */
  ghost predicate LexLess(a: string, b: string) {
    || (|a| < |b| && a == b[..|a|])
    || exists k | 0 <= k < |a| && k < |b| :: a[..k] == b[..k] && a[k] < b[k]
  }

  /** At the first index k where the strings differ, compareTo is the
      difference of the characters at k. */
  lemma {:induction false} CompareToFirstDifference(a: string, b: string, k: nat)
    requires k < |a| && k < |b| && a[..k] == b[..k] && a[k] != b[k]
    ensures CompareTo(a, b) == a[k] as int - b[k] as int
    decreases k
  {
    if k > 0 {
      assert a[0] == a[..k][0] == b[..k][0] == b[0];
      assert a[1..][..k - 1] == a[..k][1..] && b[1..][..k - 1] == b[..k][1..];
      CompareToFirstDifference(a[1..], b[1..], k - 1);
    }
  }

  lemma {:induction false} CompareToZeroIffEqual(a: string, b: string)
    ensures CompareTo(a, b) == 0 <==> a == b
    decreases |a|
  {
    if |a| > 0 && |b| > 0 && a[0] == b[0] {
      CompareToZeroIffEqual(a[1..], b[1..]);
      assert a == [a[0]] + a[1..] && b == [b[0]] + b[1..];
    }
  }

  lemma {:induction false} CompareToAntisymmetric(a: string, b: string)
    ensures CompareTo(b, a) == -CompareTo(a, b)
    decreases |a|
  {
    if |a| > 0 && |b| > 0 && a[0] == b[0] {
      CompareToAntisymmetric(a[1..], b[1..]);
    }
  }

  lemma {:induction false} CompareToTransitive(a: string, b: string, c: string)
    requires CompareTo(a, b) <= 0 && CompareTo(b, c) <= 0
    ensures CompareTo(a, c) <= 0
    decreases |a|
  {
    if |a| > 0 && |b| > 0 && |c| > 0 && a[0] == b[0] && b[0] == c[0] {
      CompareToTransitive(a[1..], b[1..], c[1..]);
    }
  }

  /** Prepending a common first unit keeps a lexicographically smaller string smaller. */
  lemma LexLessCons(a: string, b: string)
    requires |a| > 0 && |b| > 0 && a[0] == b[0] && LexLess(a[1..], b[1..])
    ensures LexLess(a, b)
  {
    var a', b' := a[1..], b[1..];
    if |a'| < |b'| && a' == b'[..|a'|] {
      assert a == [a[0]] + a';
      assert b[..|a|] == [b[0]] + b'[..|a'|];
    } else {
      var k :| 0 <= k < |a'| && k < |b'| && a'[..k] == b'[..k] && a'[k] < b'[k];
      assert a[..k + 1] == [a[0]] + a'[..k];
      assert b[..k + 1] == [b[0]] + b'[..k];
      assert a[k + 1] == a'[k] && b[k + 1] == b'[k];
    }
  }

  /** Dropping a common first unit keeps a lexicographically smaller string smaller. */
  lemma LexLessTail(a: string, b: string)
    requires |a| > 0 && |b| > 0 && a[0] == b[0] && LexLess(a, b)
    ensures LexLess(a[1..], b[1..])
  {
    var a', b' := a[1..], b[1..];
    if |a| < |b| && a == b[..|a|] {
      assert a' == b'[..|a'|];
    } else {
      var k :| 0 <= k < |a| && k < |b| && a[..k] == b[..k] && a[k] < b[k];
      assert k > 0;
      assert a'[..k - 1] == a[1..k] == b[1..k] == b'[..k - 1];
      assert a'[k - 1] == a[k] && b'[k - 1] == b[k];
    }
  }

  /** compareTo is negative exactly when a comes first lexicographically. */
  lemma {:induction false} CompareToIsLexicographic(a: string, b: string)
    ensures CompareTo(a, b) < 0 <==> LexLess(a, b)
    decreases |a|
  {
    if |a| == 0 || |b| == 0 {
      if |a| == 0 && |b| > 0 {
        assert a == b[..|a|];
      }
    } else if a[0] != b[0] {
      if a[0] < b[0] {
        assert a[..0] == b[..0];
      } else {
        forall k | 0 < k <= |a| && k <= |b| ensures a[..k] != b[..k] {
          assert a[..k][0] == a[0] && b[..k][0] == b[0];
        }
        if |a| < |b| {
          assert b[..|a|][0] == b[0];
        }
      }
    } else {
      CompareToIsLexicographic(a[1..], b[1..]);
      if LexLess(a[1..], b[1..]) {
        LexLessCons(a, b);
      }
      if LexLess(a, b) {
        LexLessTail(a, b);
      }
    }
  }
}

=== FILE: job_finder.dfy ===
/** JobFinder: which jobs an incoming webhook triggers, and whether the given
    token authorises it (class JobFinder). Jenkins, the credential store and
    the JSON libraries are reached only through an Environment of functions. */
module JobFinder {
  import opened Wrappers
  import opened JavaString
  import opened JavaMap
  import opened Renderer
  import opened JobFinderConfig

  /** hudson.model.BuildAuthorizationToken: the job-level token of Jenkins core. */
  datatype BuildAuthorizationToken = BuildAuthorizationToken(token: Option<string>)

  /** The settings of this plugin's trigger that the job finder reads. */
  datatype GenericTrigger = GenericTrigger(token: Option<string>, tokenCredentialId: Option<string>)

  /** A trigger configured on a job: this plugin's, or one of another kind. */
  datatype Trigger = Generic(generic: GenericTrigger) | OtherTrigger(descriptor: string)

  /** A parameterized job: its full name, its job-level token (None when null),
      and the values of its trigger map in iteration order (None when the map
      itself is null). */
  datatype Job = Job(fullName: string, authToken: Option<BuildAuthorizationToken>,
                     triggers: Option<seq<Trigger>>)

  /** A job to trigger, with the trigger that selected it. */
  datatype FoundJob = FoundJob(fullName: string, genericTrigger: GenericTrigger)

  /** What the job finder asks of Jenkins and of the libraries it calls:
      - allJobs(impersonate): the parameterized jobs visible, as SYSTEM when impersonate;
      - jobsByFullName(impersonate, names): the parameterized jobs with those full names;
      - findCredentials(id, job): the secret text of the string credential id in the
        job's context, None when there is none;
      - flatten(content): the payload parsed by Gson and flattened, with no key filter;
      - read(document, expression): JsonPath.read, None when the path is not found
        or evaluation fails. */
  datatype Environment = Environment(
    allJobs: bool -> seq<Job>,
    jobsByFullName: (bool, seq<string>) -> seq<Job>,
    findCredentials: (string, Job) -> Option<string>,
    flatten: string -> StringMap,
    read: (string, string) -> Option<JsonContent>)

  // ---------------------------------------------------------------------------
  // Token decision
  // ---------------------------------------------------------------------------

  /** jobHasAuthToken: a job token object is present and its text is neither
      null nor empty. */
  function JobHasAuthToken(authToken: Option<BuildAuthorizationToken>): (r: bool)
    ensures r <==> authToken.Some? && authToken.value.token.Some? && authToken.value.token.value != ""
  {
    authToken.Some? && !IsNullOrEmpty(authToken.value.token)
  }

  /** The job-level secret when one is configured. */
  function JobSecret(authToken: Option<BuildAuthorizationToken>): (s: Option<string>)
    ensures s.Some? <==> JobHasAuthToken(authToken)
    ensures s.Some? ==> s == authToken.value.token
  {
    if JobHasAuthToken(authToken) then authToken.value.token else None
  }

  /** authenticationTokenMatchesGeneric: a configured token must be given and
      be equal; with none configured, none may be given. In other words the
      configured and the given token agree once null and "" are identified.
      MessageDigest.isEqual on the UTF-8 bytes is modelled as string equality. */
  function AuthenticationTokenMatchesGeneric(token: Option<string>, givenToken: Option<string>): (r: bool)
    ensures r <==> NonEmpty(token) == NonEmpty(givenToken)
  {
    var jobHasAuthToken := !IsNullOrEmpty(token);
    var authTokenWasGiven := !IsNullOrEmpty(givenToken);
    if jobHasAuthToken && authTokenWasGiven then token.value == givenToken.value
    else if !jobHasAuthToken && !authTokenWasGiven then true
    else false
  }

  /** authenticationTokenMatches(authToken, givenToken): the same check against
      the job-level token. */
  function AuthenticationTokenMatchesJob(authToken: Option<BuildAuthorizationToken>,
                                         givenToken: Option<string>): (r: bool)
    ensures r <==> JobSecret(authToken) == NonEmpty(givenToken)
  {
    var jobHasAuthToken := JobHasAuthToken(authToken);
    var authTokenWasGiven := !IsNullOrEmpty(givenToken);
    if jobHasAuthToken && authTokenWasGiven then authToken.value.token.value == givenToken.value
    else if !jobHasAuthToken && !authTokenWasGiven then true
    else false
  }

  /** authenticationTokenMatches(givenToken, authToken, genericToken): the
      decision table over which secrets are configured.
      - none: authorised exactly when no token is given;
      - only the generic token: a non-empty given token equal to it;
      - only the job token: a non-empty given token equal to it;
      - both: never authorised. */
  function AuthenticationTokenMatches(givenToken: Option<string>,
                                     authToken: Option<BuildAuthorizationToken>,
                                     genericToken: Option<string>): (r: bool)
    ensures !JobHasAuthToken(authToken) && IsNullOrEmpty(genericToken) ==>
              (r <==> IsNullOrEmpty(givenToken))
    ensures !JobHasAuthToken(authToken) && !IsNullOrEmpty(genericToken) ==>
              (r <==> !IsNullOrEmpty(givenToken) && givenToken == genericToken)
    ensures JobHasAuthToken(authToken) && IsNullOrEmpty(genericToken) ==>
              (r <==> !IsNullOrEmpty(givenToken) && givenToken == authToken.value.token)
    ensures JobHasAuthToken(authToken) && !IsNullOrEmpty(genericToken) ==> !r
  {
    var noTokenGiven := IsNullOrEmpty(givenToken);
    var noKindOfTokenConfigured := IsNullOrEmpty(genericToken) && !JobHasAuthToken(authToken);
    var genericTokenNotConfigured := IsNullOrEmpty(genericToken);
    var authTokenNotConfigured := !JobHasAuthToken(authToken);
    || (genericTokenNotConfigured && AuthenticationTokenMatchesJob(authToken, givenToken))
    || (authTokenNotConfigured && AuthenticationTokenMatchesGeneric(genericToken, givenToken))
    || (noTokenGiven && noKindOfTokenConfigured)
  }

  /** With no secret configured and no token given, the first two disjuncts of
      authenticationTokenMatches already hold, so the third never decides. */
  lemma LastDisjunctIsRedundant(givenToken: Option<string>, authToken: Option<BuildAuthorizationToken>,
                                genericToken: Option<string>)
    ensures IsNullOrEmpty(givenToken) && IsNullOrEmpty(genericToken) && !JobHasAuthToken(authToken) ==>
              && AuthenticationTokenMatchesJob(authToken, givenToken)
              && AuthenticationTokenMatchesGeneric(genericToken, givenToken)
  {
  }

  /** determineTokenValue: without a credential id the literal token; with one,
      the credential's secret when the store has it, else the literal token. */
  function DetermineTokenValue(job: Job, token: Option<string>, tokenCredentialsId: Option<string>,
                               findCredentials: (string, Job) -> Option<string>): (r: Option<string>)
    ensures IsNullOrEmpty(tokenCredentialsId) ==> r == token
    ensures !IsNullOrEmpty(tokenCredentialsId) && findCredentials(tokenCredentialsId.value, job).Some? ==>
              r == findCredentials(tokenCredentialsId.value, job)
    ensures !IsNullOrEmpty(tokenCredentialsId) && findCredentials(tokenCredentialsId.value, job).None? ==>
              r == token
  {
    if IsNullOrEmpty(tokenCredentialsId) then token
    else
      match findCredentials(tokenCredentialsId.value, job)
      case Some(secret) => Some(secret)
      case None => token
  }

  // ---------------------------------------------------------------------------
  // Trigger selection and the two scans
  // ---------------------------------------------------------------------------

  /** The first generic trigger of a list of triggers. */
  function FirstGeneric(triggers: seq<Trigger>): (r: Option<GenericTrigger>)
    ensures r.None? <==> forall i | 0 <= i < |triggers| :: !triggers[i].Generic?
    ensures r.Some? ==> exists i | 0 <= i < |triggers| ::
              triggers[i] == Generic(r.value) && forall k | 0 <= k < i :: !triggers[k].Generic?
    decreases |triggers|
  {
    if |triggers| == 0 then None
    else if triggers[0].Generic? then Some(triggers[0].generic)
    else
      var r := FirstGeneric(triggers[1..]);
      assert forall i | 1 <= i < |triggers| :: triggers[i] == triggers[1..][i - 1];
      r
  }

  /** findGenericTrigger: nothing for a null trigger map, else the first
      generic trigger in iteration order. */
  function FindGenericTrigger(triggers: Option<seq<Trigger>>): (r: Option<GenericTrigger>)
    ensures triggers.None? ==> r.None?
    ensures triggers.Some? ==> r == FirstGeneric(triggers.value)
  {
    match triggers
    case None => None
    case Some(ts) => FirstGeneric(ts)
  }

  /** Whether the given token may trigger a job through its generic trigger:
      the loop body of findAllJobsWithTrigger. It fails closed: a given token
      passes only when it equals a configured secret, and a call without a
      token passes only when no secret is configured at all. */
  function TokenAccepted(givenToken: Option<string>, findCredentials: (string, Job) -> Option<string>,
                         job: Job, trigger: GenericTrigger): (r: bool)
    ensures var configuredToken := DetermineTokenValue(job, trigger.token, trigger.tokenCredentialId, findCredentials);
            r && !IsNullOrEmpty(givenToken) ==>
              givenToken == configuredToken || givenToken == JobSecret(job.authToken)
    ensures var configuredToken := DetermineTokenValue(job, trigger.token, trigger.tokenCredentialId, findCredentials);
            IsNullOrEmpty(givenToken) ==>
              (r <==> IsNullOrEmpty(configuredToken) && !JobHasAuthToken(job.authToken))
    // a secret found in the credential store replaces the trigger's literal token
    ensures var id := trigger.tokenCredentialId;
            && !IsNullOrEmpty(id) && !JobHasAuthToken(job.authToken)
            && !IsNullOrEmpty(findCredentials(id.value, job)) ==>
              (r <==> givenToken == findCredentials(id.value, job))
  {
    var configuredToken := DetermineTokenValue(job, trigger.token, trigger.tokenCredentialId, findCredentials);
    AuthenticationTokenMatches(givenToken, job.authToken, configuredToken)
  }

  /** The token check of the full scan, as the accept function of KeepFound. */
  function ScanAccepts(givenToken: Option<string>, findCredentials: (string, Job) -> Option<string>):
    (accept: (Job, GenericTrigger) -> bool)
    ensures forall job, trigger :: accept(job, trigger) == TokenAccepted(givenToken, findCredentials, job, trigger)
  {
    (job, trigger) => TokenAccepted(givenToken, findCredentials, job, trigger)
  }

  /** f is what job yields when accept takes its generic trigger. */
  predicate Yields(job: Job, accept: (Job, GenericTrigger) -> bool, f: FoundJob) {
    && FindGenericTrigger(job.triggers) == Some(f.genericTrigger)
    && f.fullName == job.fullName
    && accept(job, f.genericTrigger)
  }

  /** The loops of both scans: for each candidate in order, keep it when it has
      a generic trigger and accept takes that trigger. */
  function KeepFound(jobs: seq<Job>, accept: (Job, GenericTrigger) -> bool): (found: seq<FoundJob>)
    ensures |found| <= |jobs|
    decreases |jobs|
  {
    if |jobs| == 0 then []
    else
      var rest := KeepFound(jobs[1..], accept);
      match FindGenericTrigger(jobs[0].triggers)
      case None => rest
      case Some(trigger) =>
        if accept(jobs[0], trigger) then [FoundJob(jobs[0].fullName, trigger)] + rest else rest
  }

  /** A found job comes from a candidate that yields it, and every candidate
      that yields something is found. */
  lemma {:induction false} KeepFoundMembership(jobs: seq<Job>, accept: (Job, GenericTrigger) -> bool)
    ensures forall f | f in KeepFound(jobs, accept) :: exists i | 0 <= i < |jobs| :: Yields(jobs[i], accept, f)
    ensures forall i, f | 0 <= i < |jobs| && Yields(jobs[i], accept, f) :: f in KeepFound(jobs, accept)
    decreases |jobs|
  {
    if |jobs| > 0 {
      KeepFoundMembership(jobs[1..], accept);
      var found := KeepFound(jobs, accept);
      var rest := KeepFound(jobs[1..], accept);
      forall f | f in found ensures exists i | 0 <= i < |jobs| :: Yields(jobs[i], accept, f) {
        if !Yields(jobs[0], accept, f) {
          assert f in rest;
          var i :| 0 <= i < |jobs[1..]| && Yields(jobs[1..][i], accept, f);
          assert jobs[1..][i] == jobs[i + 1];
        }
      }
      forall i, f | 0 <= i < |jobs| && Yields(jobs[i], accept, f) ensures f in found {
        if i > 0 {
          assert jobs[1..][i - 1] == jobs[i];
        }
      }
    }
  }

  /** The scan keeps candidate order: it distributes over concatenation. */
  lemma {:induction false} KeepFoundAppend(a: seq<Job>, b: seq<Job>, accept: (Job, GenericTrigger) -> bool)
    ensures KeepFound(a + b, accept) == KeepFound(a, accept) + KeepFound(b, accept)
    decreases |a|
  {
    if |a| == 0 {
      assert a + b == b;
    } else {
      assert (a + b)[1..] == a[1..] + b;
      KeepFoundAppend(a[1..], b, accept);
    }
  }

  /** The candidates of the full scan: all jobs, seen as SYSTEM when a token is given. */
  function ScanCandidates(givenToken: Option<string>, env: Environment): (r: seq<Job>)
    ensures IsNullOrEmpty(givenToken) ==> r == env.allJobs(false)
    ensures !IsNullOrEmpty(givenToken) ==> r == env.allJobs(true)
  {
    env.allJobs(!IsNullOrEmpty(givenToken))
  }

  /** findAllJobsWithTrigger: exactly the candidates with a generic trigger
      whose token check passes, in candidate order (see FullScanKeepsOrder). */
  function FindAllJobsWithTrigger(givenToken: Option<string>, env: Environment): (found: seq<FoundJob>)
    ensures found == KeepFound(ScanCandidates(givenToken, env), ScanAccepts(givenToken, env.findCredentials))
    ensures |found| <= |ScanCandidates(givenToken, env)|
    ensures forall f | f in found :: exists i | 0 <= i < |ScanCandidates(givenToken, env)| ::
              var job := ScanCandidates(givenToken, env)[i];
              && FindGenericTrigger(job.triggers) == Some(f.genericTrigger)
              && f.fullName == job.fullName
              && TokenAccepted(givenToken, env.findCredentials, job, f.genericTrigger)
    ensures forall job, trigger | job in ScanCandidates(givenToken, env)
                                  && FindGenericTrigger(job.triggers) == Some(trigger)
                                  && TokenAccepted(givenToken, env.findCredentials, job, trigger) ::
              FoundJob(job.fullName, trigger) in found
  {
    var candidates := ScanCandidates(givenToken, env);
    var accept := ScanAccepts(givenToken, env.findCredentials);
    KeepFoundMembership(candidates, accept);
    forall job, trigger | job in candidates && FindGenericTrigger(job.triggers) == Some(trigger)
                          && TokenAccepted(givenToken, env.findCredentials, job, trigger)
      ensures FoundJob(job.fullName, trigger) in KeepFound(candidates, accept)
    {
      var i :| 0 <= i < |candidates| && candidates[i] == job;
      assert Yields(candidates[i], accept, FoundJob(job.fullName, trigger));
    }
    KeepFound(candidates, accept)
  }

  /** The full scan keeps candidate order and yields at most one job per
      candidate: splitting the candidates splits the result the same way. */
  lemma FullScanKeepsOrder(givenToken: Option<string>, env: Environment, a: seq<Job>, job: Job, b: seq<Job>)
    requires ScanCandidates(givenToken, env) == a + [job] + b
    ensures var accept := ScanAccepts(givenToken, env.findCredentials);
            FindAllJobsWithTrigger(givenToken, env)
            == KeepFound(a, accept) + KeepFound([job], accept) + KeepFound(b, accept)
    ensures |KeepFound([job], ScanAccepts(givenToken, env.findCredentials))| <= 1
  {
    var accept := ScanAccepts(givenToken, env.findCredentials);
    KeepFoundAppend(a + [job], b, accept);
    KeepFoundAppend(a, [job], accept);
  }

  /** Accepts every generic trigger: lookup by full name checks no token. */
  predicate AnyTrigger(job: Job, trigger: GenericTrigger) {
    true
  }

  /** The candidates of the lookup by full name: the jobs named by the
      configured path templates rendered against the flattened payload. */
  function FullNameCandidates(config: Config, givenToken: Option<string>, postContent: Option<string>,
                              env: Environment): (r: seq<Job>)
    ensures IsNullOrEmpty(postContent) ==> r == []
    ensures !IsNullOrEmpty(postContent) ==>
              r == env.jobsByFullName(!IsNullOrEmpty(givenToken),
                                      AllRendered(GetPathItemList(config), env.flatten(postContent.value), env.read))
  {
    if IsNullOrEmpty(postContent) then []
    else
      var postMap := env.flatten(postContent.value);
      var fullNameList := GetFullNameList(config, postMap, env.read);
      env.jobsByFullName(!IsNullOrEmpty(givenToken), fullNameList)
  }

  /** findJobWithFullName: nothing for a null or empty payload; otherwise every
      named candidate that has a generic trigger, in order, with no token check. */
  function FindJobWithFullName(config: Config, givenToken: Option<string>, postContent: Option<string>,
                               env: Environment): (found: seq<FoundJob>)
    ensures IsNullOrEmpty(postContent) ==> found == []
    ensures !IsNullOrEmpty(postContent) ==> found == KeepFound(FullNameCandidates(config, givenToken, postContent, env), AnyTrigger)
    ensures forall f | f in found :: exists i | 0 <= i < |FullNameCandidates(config, givenToken, postContent, env)| ::
              var job := FullNameCandidates(config, givenToken, postContent, env)[i];
              FindGenericTrigger(job.triggers) == Some(f.genericTrigger) && f.fullName == job.fullName
    ensures forall job, trigger | job in FullNameCandidates(config, givenToken, postContent, env)
                                  && FindGenericTrigger(job.triggers) == Some(trigger) ::
              FoundJob(job.fullName, trigger) in found
  {
    var candidates := FullNameCandidates(config, givenToken, postContent, env);
    KeepFoundMembership(candidates, AnyTrigger);
    forall job, trigger | job in candidates && FindGenericTrigger(job.triggers) == Some(trigger)
      ensures FoundJob(job.fullName, trigger) in KeepFound(candidates, AnyTrigger)
    {
      var i :| 0 <= i < |candidates| && candidates[i] == job;
      assert Yields(candidates[i], AnyTrigger, FoundJob(job.fullName, trigger));
    }
    if IsNullOrEmpty(postContent) then [] else KeepFound(candidates, AnyTrigger)
  }

  /** foundJobs: the full scan when lookup by full name is disabled or finds
      nothing; otherwise what lookup by full name found. */
  function FoundJobs(config: Config, givenToken: Option<string>, postContent: Option<string>,
                     env: Environment): (found: seq<FoundJob>)
    ensures !IsEnabled(config) ==> found == FindAllJobsWithTrigger(givenToken, env)
    ensures IsEnabled(config) && |FindJobWithFullName(config, givenToken, postContent, env)| == 0 ==>
              found == FindAllJobsWithTrigger(givenToken, env)
    ensures IsEnabled(config) && |FindJobWithFullName(config, givenToken, postContent, env)| > 0 ==>
              found == FindJobWithFullName(config, givenToken, postContent, env)
    // lookup by full name checks no token: a named job with a generic trigger
    // is returned whatever token is given
    ensures IsEnabled(config) ==>
              forall job, trigger | job in FullNameCandidates(config, givenToken, postContent, env)
                                    && FindGenericTrigger(job.triggers) == Some(trigger) ::
                FoundJob(job.fullName, trigger) in found
    // every returned job carries the first generic trigger of a candidate of
    // that name, and with lookup by full name disabled its token was accepted
    ensures forall f | f in found ::
              exists job | job in FullNameCandidates(config, givenToken, postContent, env)
                           || job in ScanCandidates(givenToken, env) ::
                FindGenericTrigger(job.triggers) == Some(f.genericTrigger) && f.fullName == job.fullName
    ensures !IsEnabled(config) ==>
              forall f | f in found ::
                exists job | job in ScanCandidates(givenToken, env) ::
                  FindGenericTrigger(job.triggers) == Some(f.genericTrigger) && f.fullName == job.fullName
                  && TokenAccepted(givenToken, env.findCredentials, job, f.genericTrigger)
  {
    if IsEnabled(config) then
      var byFullName := FindJobWithFullName(config, givenToken, postContent, env);
      if |byFullName| == 0 then FindAllJobsWithTrigger(givenToken, env) else byFullName
    else
      FindAllJobsWithTrigger(givenToken, env)
  }
}

=== FILE: job_finder_config.dfy ===
/** The global job-finder settings (class JobFinderConfig): whether lookup by
    full name is enabled and the configured path templates. The configuration
    is passed explicitly instead of being read from a global singleton. */
module JobFinderConfig {
  import opened Wrappers
  import opened JavaMap
  import opened Renderer

  /** JobFinderConfigPathItem: one configured path template (may be null). */
  datatype PathItem = PathItem(path: Option<string>)

  datatype Config = Config(enabled: bool, pathItems: seq<PathItem>)

  /** The constructor JobFinderConfig(enabled, jobFinderConfigPathItemList). */
  function NewConfig(enabled: bool, pathItems: seq<PathItem>): (c: Config)
    ensures IsEnabled(c) == enabled
    ensures GetPathItemList(c) == pathItems
  {
    Config(enabled, pathItems)
  }

  /** isEnabled: the stored flag; with the item list it rebuilds the configuration. */
  function IsEnabled(c: Config): (r: bool)
    ensures c == Config(r, c.pathItems)
  {
    c.enabled
  }

  /** getJobFinderConfigPathItemList: the stored list; with the flag it rebuilds the configuration. */
  function GetPathItemList(c: Config): (r: seq<PathItem>)
    ensures c == Config(c.enabled, r)
  {
    c.pathItems
  }

  /** setEnabled: the flag reads back as set; the path items are untouched. */
  function SetEnabled(c: Config, enabled: bool): (c': Config)
    ensures IsEnabled(c') == enabled
    ensures GetPathItemList(c') == GetPathItemList(c)
  {
    c.(enabled := enabled)
  }

  /** setJobFinderConfigPathItemList: the list reads back as set; the flag is untouched. */
  function SetPathItemList(c: Config, pathItems: seq<PathItem>): (c': Config)
    ensures GetPathItemList(c') == pathItems
    ensures IsEnabled(c') == IsEnabled(c)
  {
    c.(pathItems := pathItems)
  }

  /** The loop of getFullNameList: render every item in order and append the
      names of those whose result is not empty. */
  function CollectFullNames(items: seq<PathItem>, resolvedVariables: StringMap,
                            read: (string, string) -> Option<JsonContent>): (names: seq<string>)
    ensures |items| == 0 ==> names == []
    ensures forall name | name in names ::
              exists i | 0 <= i < |items| :: name in Render(items[i].path, resolvedVariables, read)
    decreases |items|
  {
    if |items| == 0 then []
    else
      var jobNameList := Render(items[0].path, resolvedVariables, read);
      var rest := CollectFullNames(items[1..], resolvedVariables, read);
      assert forall i | 0 <= i < |items[1..]| :: items[1..][i] == items[i + 1];
      if |jobNameList| == 0 then rest else jobNameList + rest
  }

  /** getFullNameList over the configured path items. */
  function GetFullNameList(c: Config, resolvedVariables: StringMap,
                           read: (string, string) -> Option<JsonContent>): (names: seq<string>)
    ensures |GetPathItemList(c)| == 0 ==> names == []
    ensures names == AllRendered(GetPathItemList(c), resolvedVariables, read)
    ensures |names| == RenderedCount(GetPathItemList(c), resolvedVariables, read)
    ensures forall name | name in names :: '"' !in name
  {
    SkippingEmptyResultsChangesNothing(c.pathItems, resolvedVariables, read);
    AllRenderedLength(c.pathItems, resolvedVariables, read);
    AllRenderedHasNoQuote(c.pathItems, resolvedVariables, read);
    CollectFullNames(c.pathItems, resolvedVariables, read)
  }

  /** Reference: the render results of all items, concatenated in order. */
  function AllRendered(items: seq<PathItem>, resolvedVariables: StringMap,
                       read: (string, string) -> Option<JsonContent>): seq<string>
    decreases |items|
  {
    if |items| == 0 then []
    else Render(items[0].path, resolvedVariables, read) + AllRendered(items[1..], resolvedVariables, read)
  }

  /** The sum over the items of the number of names each renders to. */
  function RenderedCount(items: seq<PathItem>, resolvedVariables: StringMap,
                         read: (string, string) -> Option<JsonContent>): nat
    decreases |items|
  {
    if |items| == 0 then 0
    else |Render(items[0].path, resolvedVariables, read)| + RenderedCount(items[1..], resolvedVariables, read)
  }

  /** Skipping the empty render results appends exactly what appending every
      result would. */
  lemma {:induction false} SkippingEmptyResultsChangesNothing(items: seq<PathItem>, resolvedVariables: StringMap,
                                                              read: (string, string) -> Option<JsonContent>)
    ensures CollectFullNames(items, resolvedVariables, read) == AllRendered(items, resolvedVariables, read)
    decreases |items|
  {
    if |items| > 0 {
      SkippingEmptyResultsChangesNothing(items[1..], resolvedVariables, read);
      var first := Render(items[0].path, resolvedVariables, read);
      if |first| == 0 {
        assert first + AllRendered(items[1..], resolvedVariables, read) == AllRendered(items[1..], resolvedVariables, read);
      }
    }
  }

  /** The number of full names is the sum of the per-item counts. */
  lemma {:induction false} AllRenderedLength(items: seq<PathItem>, resolvedVariables: StringMap,
                                             read: (string, string) -> Option<JsonContent>)
    ensures |AllRendered(items, resolvedVariables, read)| == RenderedCount(items, resolvedVariables, read)
    decreases |items|
  {
    if |items| > 0 {
      AllRenderedLength(items[1..], resolvedVariables, read);
    }
  }

  lemma {:induction false} AllRenderedHasNoQuote(items: seq<PathItem>, resolvedVariables: StringMap,
                                                 read: (string, string) -> Option<JsonContent>)
    ensures forall name | name in AllRendered(items, resolvedVariables, read) :: '"' !in name
    decreases |items|
  {
    if |items| > 0 {
      AllRenderedHasNoQuote(items[1..], resolvedVariables, read);
    }
  }

  /** Every full name is a name rendered from one of the configured items, and
      every name an item renders is among the full names. */
  lemma {:induction false} FullNamesComeFromItems(items: seq<PathItem>, resolvedVariables: StringMap,
                                                  read: (string, string) -> Option<JsonContent>)
    ensures forall name | name in AllRendered(items, resolvedVariables, read) ::
              exists i | 0 <= i < |items| :: name in Render(items[i].path, resolvedVariables, read)
    ensures forall i, name | 0 <= i < |items| && name in Render(items[i].path, resolvedVariables, read) ::
              name in AllRendered(items, resolvedVariables, read)
    decreases |items|
  {
    if |items| > 0 {
      FullNamesComeFromItems(items[1..], resolvedVariables, read);
      var all := AllRendered(items, resolvedVariables, read);
      forall name | name in all
        ensures exists i | 0 <= i < |items| :: name in Render(items[i].path, resolvedVariables, read)
      {
        if name !in Render(items[0].path, resolvedVariables, read) {
          var i :| 0 <= i < |items[1..]| && name in Render(items[1..][i].path, resolvedVariables, read);
          assert items[1..][i] == items[i + 1];
        }
      }
      forall i, name | 0 <= i < |items| && name in Render(items[i].path, resolvedVariables, read)
        ensures name in all
      {
        if i > 0 {
          assert items[1..][i - 1] == items[i];
        }
      }
    }
  }
}

=== FILE: renderer.dfy ===
/** Renderer: variable substitution in templates, the regex-filter shortcut and
    the resolution of job path templates against a payload (class Renderer). */
module Renderer {
  import opened Wrappers
  import opened JavaString
  import opened JavaMap

  // ---------------------------------------------------------------------------
  // isMatching
  // ---------------------------------------------------------------------------

  /** isMatching: with neither a rendered text nor an expression there is no
      filter and the check passes; otherwise the expression, compiled as a
      regular expression, must be found somewhere in the text. `find` stands
      for Pattern.compile(expression).matcher(text).find(). */
  function IsMatching(renderedText: Option<string>, expression: Option<string>,
                      find: (string, string) -> bool): (r: bool)
    ensures IsNullOrEmpty(renderedText) && IsNullOrEmpty(expression) ==> r
    ensures !(IsNullOrEmpty(renderedText) && IsNullOrEmpty(expression)) ==>
              (r <==> find(NullToEmpty(expression), NullToEmpty(renderedText)))
  {
    var noFilterConfigured := IsNullOrEmpty(renderedText) && IsNullOrEmpty(expression);
    noFilterConfigured || find(NullToEmpty(expression), NullToEmpty(renderedText))
  }

  // ---------------------------------------------------------------------------
  // getVariablesInResolveOrder
  // ---------------------------------------------------------------------------

  /** The comparator of getVariablesInResolveOrder: longer names first, names
      of equal length by String.compareTo. */
  function CompareForResolveOrder(o1: string, o2: string): (r: int)
    ensures r == 0 <==> o1 == o2
    ensures |o1| != |o2| ==> (r < 0 <==> |o1| > |o2|)
  {
    CompareToZeroIffEqual(o1, o2);
    if |o1| == |o2| then CompareTo(o1, o2)
    else if |o1| > |o2| then -1
    else 1
  }

  /** Every earlier name is resolved no later than every later one. */
  ghost predicate InResolveOrder(s: seq<string>) {
    forall i, j | 0 <= i < j < |s| :: CompareForResolveOrder(s[i], s[j]) <= 0
  }

  /** The comparator puts a first exactly when a is longer, or of equal length
      and lexicographically smaller. */
  lemma ComparatorMeaning(a: string, b: string)
    ensures CompareForResolveOrder(a, b) < 0 <==> |a| > |b| || (|a| == |b| && LexLess(a, b))
    ensures CompareForResolveOrder(a, b) == 0 <==> a == b
  {
    CompareToIsLexicographic(a, b);
    CompareToZeroIffEqual(a, b);
  }

  lemma ComparatorAntisymmetric(a: string, b: string)
    ensures CompareForResolveOrder(b, a) == -CompareForResolveOrder(a, b)
  {
    CompareToAntisymmetric(a, b);
  }

  lemma ComparatorTransitive(a: string, b: string, c: string)
    requires CompareForResolveOrder(a, b) <= 0 && CompareForResolveOrder(b, c) <= 0
    ensures CompareForResolveOrder(a, c) <= 0
  {
    if |a| == |b| == |c| {
      CompareToTransitive(a, b, c);
    }
  }

  /** Prepending x keeps the order when x resolves no later than every element. */
  lemma ConsInResolveOrder(x: string, s: seq<string>)
    requires InResolveOrder(s)
    requires forall y | y in s :: CompareForResolveOrder(x, y) <= 0
    ensures InResolveOrder([x] + s)
  {
    var t := [x] + s;
    forall i, j | 0 <= i < j < |t| ensures CompareForResolveOrder(t[i], t[j]) <= 0 {
      if i == 0 {
        assert t[j] == s[j - 1];
      } else {
        assert t[i] == s[i - 1] && t[j] == s[j - 1];
      }
    }
  }

  /** Inserts x before the first element it resolves no later than. */
  function InsertInResolveOrder(x: string, xs: seq<string>): (r: seq<string>)
    requires InResolveOrder(xs)
    ensures multiset(r) == multiset(xs) + multiset{x}
    ensures InResolveOrder(r)
    decreases |xs|
  {
    if |xs| == 0 then [x]
    else if CompareForResolveOrder(x, xs[0]) <= 0 then
      PrecedesSorted(x, xs);
      ConsInResolveOrder(x, xs);
      [x] + xs
    else
      var rest := InsertInResolveOrder(x, xs[1..]);
      HeadPrecedesInsertion(x, xs, rest);
      ConsInResolveOrder(xs[0], rest);
      assert xs == [xs[0]] + xs[1..];
      [xs[0]] + rest
  }

  lemma PrecedesSorted(x: string, xs: seq<string>)
    requires InResolveOrder(xs) && |xs| > 0
    requires CompareForResolveOrder(x, xs[0]) <= 0
    ensures forall y | y in xs :: CompareForResolveOrder(x, y) <= 0
  {
    forall y | y in xs ensures CompareForResolveOrder(x, y) <= 0 {
      var j :| 0 <= j < |xs| && xs[j] == y;
      if j > 0 {
        ComparatorTransitive(x, xs[0], y);
      }
    }
  }

  lemma HeadPrecedesInsertion(x: string, xs: seq<string>, rest: seq<string>)
    requires InResolveOrder(xs) && |xs| > 0
    requires CompareForResolveOrder(x, xs[0]) > 0
    requires multiset(rest) == multiset(xs[1..]) + multiset{x}
    ensures forall y | y in rest :: CompareForResolveOrder(xs[0], y) <= 0
  {
    ComparatorAntisymmetric(x, xs[0]);
    forall y | y in rest ensures CompareForResolveOrder(xs[0], y) <= 0 {
      assert y in multiset(rest);
      if y != x {
        assert y in multiset(xs[1..]);
        var j :| 0 <= j < |xs[1..]| && xs[1..][j] == y;
        assert xs[j + 1] == y;
      }
    }
  }

  /** getVariablesInResolveOrder: the names (listed in the key set's iteration
      order) sorted longest first, names of equal length in ascending
      compareTo order. */
  function GetVariablesInResolveOrder(unsorted: seq<string>): (variables: seq<string>)
    ensures multiset(variables) == multiset(unsorted)
    ensures InResolveOrder(variables)
    ensures forall i, j | 0 <= i < j < |variables| ::
              |variables[i]| > |variables[j]|
              || (|variables[i]| == |variables[j]| && CompareTo(variables[i], variables[j]) <= 0)
    decreases |unsorted|
  {
    if |unsorted| == 0 then []
    else
      assert unsorted == [unsorted[0]] + unsorted[1..];
      InsertInResolveOrder(unsorted[0], GetVariablesInResolveOrder(unsorted[1..]))
  }

  /** The first name of a list in resolve order resolves no later than any of its names. */
  lemma FirstResolvesFirst(s: seq<string>, y: string)
    requires InResolveOrder(s) && y in s
    ensures CompareForResolveOrder(s[0], y) <= 0
  {
  }

  /** Two lists in resolve order with the same names start with the same name. */
  lemma SameFirstName(a: seq<string>, b: seq<string>)
    requires InResolveOrder(a) && InResolveOrder(b)
    requires multiset(a) == multiset(b) && |a| > 0
    ensures |b| > 0 && a[0] == b[0]
  {
    assert a[0] in multiset(b);
    assert b[0] in multiset(a);
    FirstResolvesFirst(a, b[0]);
    FirstResolvesFirst(b, a[0]);
    ComparatorAntisymmetric(a[0], b[0]);
    ComparatorMeaning(a[0], b[0]);
  }

  /** There is only one arrangement of a multiset of names in resolve order. */
  lemma {:induction false} ResolveOrderIsUnique(a: seq<string>, b: seq<string>)
    requires InResolveOrder(a) && InResolveOrder(b)
    requires multiset(a) == multiset(b)
    ensures a == b
    decreases |a|
  {
    if |a| > 0 {
      SameFirstName(a, b);
      TailsArePermutations(a, b);
      ResolveOrderIsUnique(a[1..], b[1..]);
    } else {
      assert |b| == |multiset(b)|;
    }
  }

  /** The resolve order does not depend on the iteration order of the key set. */
  lemma ResolveOrderIgnoresIterationOrder(xs: seq<string>, ys: seq<string>)
    requires multiset(xs) == multiset(ys)
    ensures GetVariablesInResolveOrder(xs) == GetVariablesInResolveOrder(ys)
  {
    ResolveOrderIsUnique(GetVariablesInResolveOrder(xs), GetVariablesInResolveOrder(ys));
  }

  // ---------------------------------------------------------------------------
  // renderText / replaceKey
  // ---------------------------------------------------------------------------

  /** replaceKey: String.replace of every occurrence of key (never empty: it
      always starts with '$'). The text splits into key-free pieces that are
      joined by the key; the result joins the same pieces by the value, so no
      occurrence of the key taken from the original text survives. */
  function ReplaceKey(text: string, resolvedVariable: string, key: string): (r: string)
    requires |key| > 0
    ensures !Contains(text, key) ==> r == text
    ensures r == Join(Pieces(text, key), resolvedVariable)
    ensures Join(Pieces(text, key), key) == text
    ensures forall p | p in Pieces(text, key) :: !Contains(p, key)
  {
    ReplaceJoinsPieces(text, key, resolvedVariable);
    PiecesJoinBack(text, key);
    PiecesAreTargetFree(text, key);
    Replace(text, key, resolvedVariable)
  }

  /** The loop of renderText: for each name in order, replace `$name` and then
      `${name}` by its value. */
  function SubstituteVariables(text: string, variables: seq<string>, resolvedVariables: StringMap): (r: string)
    requires forall v | v in variables :: v in Keys(resolvedVariables)
    ensures '$' !in text ==> r == text
    decreases |variables|
  {
    if |variables| == 0 then text
    else
      var variable := variables[0];
      var value := Get(resolvedVariables, variable).value;
      var bare := ReplaceKey(text, value, "$" + variable);
      DollarFreeUnchanged(text, value, "$" + variable);
      var braced := ReplaceKey(bare, value, "${" + variable + "}");
      DollarFreeUnchanged(bare, value, "${" + variable + "}");
      SubstituteVariables(braced, variables[1..], resolvedVariables)
  }

  /** A placeholder starts with '$', so text without '$' holds none. */
  lemma DollarFreeUnchanged(text: string, value: string, key: string)
    requires |key| > 0 && key[0] == '$'
    ensures '$' !in text ==> ReplaceKey(text, value, key) == text
  {
  }

  /** The loop reads the map only through get: maps that agree on the names
      give the same text. */
  lemma {:induction false} SubstituteSameValues(text: string, variables: seq<string>, m1: StringMap, m2: StringMap)
    requires forall v | v in variables :: v in Keys(m1) && v in Keys(m2) && Get(m1, v) == Get(m2, v)
    ensures SubstituteVariables(text, variables, m1) == SubstituteVariables(text, variables, m2)
    decreases |variables|
  {
    if |variables| > 0 {
      var variable := variables[0];
      var value := Get(m1, variable).value;
      var braced := ReplaceKey(ReplaceKey(text, value, "$" + variable), value, "${" + variable + "}");
      assert forall v | v in variables[1..] :: v in variables;
      SubstituteSameValues(braced, variables[1..], m1, m2);
    }
  }

  /** renderText: null or empty renders to the empty text; otherwise every
      variable is substituted, longest name first. */
  function RenderText(template: Option<string>, resolvedVariables: StringMap): (r: string)
    ensures IsNullOrEmpty(template) ==> r == ""
    ensures !IsNullOrEmpty(template) && |resolvedVariables| == 0 ==> r == template.value
  {
    if IsNullOrEmpty(template) then ""
    else
      var variables := GetVariablesInResolveOrder(Keys(resolvedVariables));
      assert forall v | v in variables :: v in multiset(variables);
      SubstituteVariables(template.value, variables, resolvedVariables)
  }

  /** A template without any '$' renders to itself, whatever the variables. */
  lemma RenderTextWithoutPlaceholders(template: string, resolvedVariables: StringMap)
    requires |template| > 0 && '$' !in template
    ensures RenderText(Some(template), resolvedVariables) == template
  {
  }

  /** With `id` and `id_long` defined, `id_long` is resolved first. */
  lemma LongerNameResolvesFirst()
    ensures GetVariablesInResolveOrder(["id", "id_long"]) == ["id_long", "id"]
  {
  }

  lemma SubstituteLongName()
    ensures ReplaceKey("$id_long-$id", "2", "$" + "id_long") == "2-$id"
    ensures ReplaceKey("2-$id", "2", "${" + "id_long" + "}") == "2-$id"
  {
    ReplaceLongName();
  }

  lemma SubstituteShortName()
    ensures ReplaceKey("2-$id", "1", "$" + "id") == "2-1"
    ensures ReplaceKey("2-1", "1", "${" + "id" + "}") == "2-1"
  {
    ReplaceShortName();
  }

  /** The String.replace steps behind SubstituteLongName. */
  lemma ReplaceLongName()
    ensures Replace("$id_long-$id", "$" + "id_long", "2") == "2-$id"
    ensures Replace("2-$id", "${" + "id_long" + "}", "2") == "2-$id"
  {
  }

  /** The String.replace steps behind SubstituteShortName. */
  lemma ReplaceShortName()
    ensures Replace("2-$id", "$" + "id", "1") == "2-1"
    ensures Replace("2-1", "${" + "id" + "}", "1") == "2-1"
  {
  }

  /** A non-empty template is rendered by substituting the map's names in
      resolve order. */
  lemma RenderTextUsesResolveOrder(template: string, m: StringMap)
    requires |template| > 0
    ensures forall v | v in GetVariablesInResolveOrder(Keys(m)) :: v in Keys(m)
    ensures RenderText(Some(template), m)
            == SubstituteVariables(template, GetVariablesInResolveOrder(Keys(m)), m)
  {
    var variables := GetVariablesInResolveOrder(Keys(m));
    assert forall v | v in variables :: v in multiset(variables);
  }

  /** The last step of the example: `$id` becomes 1. */
  lemma SubstituteIdStep(m: StringMap)
    requires "id" in Keys(m) && Get(m, "id") == Some("1")
    ensures SubstituteVariables("2-$id", ["id"], m) == "2-1"
  {
    SubstituteShortName();
    assert ["id"][1..] == [];
  }

  /** The first step of the example: `$id_long` becomes 2, then `$id` becomes 1. */
  lemma SubstituteIdLongStep(m: StringMap)
    requires "id" in Keys(m) && Get(m, "id") == Some("1")
    requires "id_long" in Keys(m) && Get(m, "id_long") == Some("2")
    ensures SubstituteVariables("$id_long-$id", ["id_long", "id"], m) == "2-1"
  {
    SubstituteLongName();
    SubstituteIdStep(m);
    assert ["id_long", "id"][1..] == ["id"];
  }

  /** The names of the example map, in resolve order. */
  lemma ExampleMapOrder(m: StringMap)
    requires m == [("id", "1"), ("id_long", "2")]
    ensures GetVariablesInResolveOrder(Keys(m)) == ["id_long", "id"]
  {
    assert Keys(m) == ["id", "id_long"];
    LongerNameResolvesFirst();
  }

  /** The values of the example map. */
  lemma ExampleMapValues(m: StringMap)
    requires m == [("id", "1"), ("id_long", "2")]
    ensures "id" in Keys(m) && Get(m, "id") == Some("1")
    ensures "id_long" in Keys(m) && Get(m, "id_long") == Some("2")
  {
  }

  /** The longer name is substituted first, so `$id` cannot eat the start of `$id_long`. */
  lemma RenderTextLongerNameFirst()
    ensures RenderText(Some("$id_long-$id"), [("id", "1"), ("id_long", "2")]) == "2-1"
  {
    var m: StringMap := [("id", "1"), ("id_long", "2")];
    RenderTextUsesResolveOrder("$id_long-$id", m);
    ExampleMapOrder(m);
    ExampleMapValues(m);
    SubstituteIdLongStep(m);
  }

  /** With a single variable, renderText replaces `$name` and then `${name}`
      by its value. */
  lemma RenderSingleVariable(template: string, name: string, value: string)
    requires |template| > 0
    ensures RenderText(Some(template), [(name, value)])
            == Replace(Replace(template, "$" + name, value), "${" + name + "}", value)
  {
    var m: StringMap := [(name, value)];
    RenderTextUsesResolveOrder(template, m);
    assert Keys(m) == [name];
    assert GetVariablesInResolveOrder([name]) == [name];
    assert Get(m, name) == Some(value);
    assert [name][1..] == [];
  }

  /** `$name` does not occur in text whose only '$' opens `${name}`, when the
      name does not itself start with a brace. */
  lemma BareKeyAbsent(prefix: string, name: string, suffix: string)
    requires '$' !in prefix && '$' !in suffix
    requires |name| > 0 && name[0] != '{' && '$' !in name
    ensures !Contains(prefix + "${" + name + "}" + suffix, "$" + name)
  {
    var t := prefix + "${" + name + "}" + suffix;
    var key := "$" + name;
    forall i | 0 <= i <= |t| ensures !OccursAt(t, key, i) {
      if i + |key| <= |t| {
        var w := t[i..i + |key|];
        assert w[0] == t[i] && w[1] == t[i + 1];
        if i == |prefix| {
          assert t[i + 1] == '{';
          assert w[1] != key[1];
        } else {
          OnlyDollarOpensPlaceholder(prefix, name, suffix, i);
          assert w[0] != key[0];
        }
      }
    }
  }

  /** The only '$' of `prefix + "${" + name + "}" + suffix` is the one that
      opens the placeholder. */
  lemma OnlyDollarOpensPlaceholder(prefix: string, name: string, suffix: string, i: int)
    requires '$' !in prefix && '$' !in suffix && '$' !in name
    requires 0 <= i < |prefix + "${" + name + "}" + suffix| && i != |prefix|
    ensures (prefix + "${" + name + "}" + suffix)[i] != '$'
  {
    var t := prefix + "${" + name + "}" + suffix;
    if i < |prefix| {
      assert t[i] == prefix[i];
    } else if i == |prefix| + 1 {
      assert t[i] == '{';
    } else if i < |prefix| + 2 + |name| {
      assert t[i] == name[i - |prefix| - 2];
    } else if i == |prefix| + 2 + |name| {
      assert t[i] == '}';
    } else {
      assert t[i] == suffix[i - |prefix| - 3 - |name|];
    }
  }

  /** A `${name}` placeholder is replaced by the variable's value: the text
      around it, free of '$', is kept as it is. */
  lemma BracedPlaceholderRenders(prefix: string, name: string, suffix: string, value: string)
    requires '$' !in prefix && '$' !in suffix
    requires |name| > 0 && name[0] != '{' && '$' !in name
    ensures RenderText(Some(prefix + "${" + name + "}" + suffix), [(name, value)]) == prefix + value + suffix
  {
    var braced := "${" + name + "}";
    var t := prefix + "${" + name + "}" + suffix;
    assert t == prefix + braced + suffix;
    BareKeyAbsent(prefix, name, suffix);
    ReplaceWithoutOccurrence(t, "$" + name, value);
    ConcatAssociative(prefix, braced, suffix);
    ReplaceSkipsPrefix(prefix, braced + suffix, braced, value);
    assert (braced + suffix)[..|braced|] == braced;
    ReplaceAtOccurrence(braced + suffix, braced, value);
    assert (braced + suffix)[|braced|..] == suffix;
    AbsentCharMeansAbsent(suffix, braced, 0);
    ReplaceWithoutOccurrence(suffix, braced, value);
    ConcatAssociative(prefix, value, suffix);
    RenderSingleVariable(t, name, value);
  }

  /** Both placeholder forms in one template: `${id}-$id` renders to `1-1`. */
  lemma RenderBracedAndBare()
    ensures RenderText(Some("${id}-$id"), [("id", "1")]) == "1-1"
  {
    RenderSingleVariable("${id}-$id", "id", "1");
    ReplaceBareInMixed();
    ReplaceBracedInMixed();
  }

  /** The `$id` step of RenderBracedAndBare: only the bare placeholder matches. */
  lemma ReplaceBareInMixed()
    ensures Replace("${id}-$id", "$" + "id", "1") == "${id}-1"
  {
    var s := "${id}-$id";
    assert "$" + "id" == "$id";
    assert !StartsWith(s, "$id") by { assert s[1] != "$id"[1]; }
    ReplacePastCharacter(s, "$id", "1");
    assert s[1..] == "{id}-$id";
    ReplaceBareAfterBrace();
    assert [s[0]] + "{id}-1" == "${id}-1";
  }

  /** The rest of the `$id` step, past the opening '$'. */
  lemma ReplaceBareAfterBrace()
    ensures Replace("{id}-$id", "$id", "1") == "{id}-1"
  {
    assert "{id}-$id" == "{id}-" + "$id";
    ReplaceSkipsPrefix("{id}-", "$id", "$id", "1");
    ReplaceAtOccurrence("$id", "$id", "1");
    assert "$id"[3..] == "";
    assert "{id}-" + ("1" + "") == "{id}-1";
  }

  /** The `${id}` step of RenderBracedAndBare. */
  lemma ReplaceBracedInMixed()
    ensures Replace("${id}-1", "${" + "id" + "}", "1") == "1-1"
  {
    var u := "${id}-1";
    assert u[..5] == "${id}";
    ReplaceAtOccurrence(u, "${id}", "1");
    assert u[5..] == "-1";
  }

  /** Java leaves a map's iteration order unspecified; it does not matter:
      two maps with the same entries render every template alike. */
  lemma RenderTextIgnoresIterationOrder(template: Option<string>, m1: StringMap, m2: StringMap)
    requires DistinctKeys(m1) && DistinctKeys(m2)
    requires multiset(m1) == multiset(m2)
    ensures RenderText(template, m1) == RenderText(template, m2)
  {
    if !IsNullOrEmpty(template) {
      KeysOfPermutation(m1, m2);
      ResolveOrderIgnoresIterationOrder(Keys(m1), Keys(m2));
      var variables := GetVariablesInResolveOrder(Keys(m1));
      RenderTextUsesResolveOrder(template.value, m1);
      RenderTextUsesResolveOrder(template.value, m2);
      forall v | v in variables ensures v in Keys(m1) && v in Keys(m2) && Get(m1, v) == Get(m2, v) {
        assert v in multiset(Keys(m2));
        var value := Get(m1, v).value;
        assert (v, value) in multiset(m2);
        GetFindsEntry(m2, v, value);
      }
      SubstituteSameValues(template.value, variables, m1, m2);
    }
  }
  // ---------------------------------------------------------------------------
  // render
  // ---------------------------------------------------------------------------

  /** What JsonPath.read returns: a string, or any other JSON value, which the
      renderer turns into text with Gson's toJson (nulls serialized). */
  datatype JsonContent = JsonString(text: string) | JsonOther(serialized: string)

  /** The text a read value contributes to a path: content.toString(). */
  function ContentText(content: JsonContent): (r: string)
    ensures content.JsonString? ==> r == content.text
    ensures content.JsonOther? ==> r == content.serialized
  {
    match content
    case JsonString(text) => text
    case JsonOther(serialized) => serialized
  }

  /** A path field is a JsonPath expression when it starts with "${". */
  predicate IsExpression(field: string) {
    StartsWith(field, "${")
  }

  /** A field is an expression exactly when its first two characters are '$' and '{'. */
  lemma IsExpressionMeaning(field: string)
    ensures IsExpression(field) <==> |field| >= 2 && field[0] == '$' && field[1] == '{'
  {
  }

  /** The expression of a field: every "${" and every "}" removed
      (FlattenerUtils.filter with the patterns \$\{ and \}). */
  function ExpressionOf(field: string): string {
    Replace(Replace(field, "${", ""), "}", "")
  }

  /** An expression holds no '}', and a field with neither "${" nor '}' is
      its own expression. */
  lemma ExpressionOfMeaning(field: string)
    ensures '}' !in ExpressionOf(field)
    ensures '}' !in field && !Contains(field, "${") ==> ExpressionOf(field) == field
  {
    var withoutOpen := Replace(field, "${", "");
    ReplaceRemovesChar(withoutOpen, '}');
    ReplaceAbsentChar(withoutOpen, '}', "");
  }

  /** One field of the inner loop of render: an expression is read from the
      document, any other field is kept verbatim. */
  function ResolveField(field: string, document: string,
                        read: (string, string) -> Option<JsonContent>): (r: Option<string>)
    ensures r.Some? <==> (IsExpression(field) ==> read(document, ExpressionOf(field)).Some?)
    ensures r.Some? && !IsExpression(field) ==> r.value == field
    ensures r.Some? && IsExpression(field) ==> r.value == ContentText(read(document, ExpressionOf(field)).value)
  {
    if IsExpression(field) then
      match read(document, ExpressionOf(field))
      case None => None
      case Some(content) => Some(ContentText(content))
    else Some(field)
  }

  /** The inner loop of render: expression fields are read from the document,
      other fields are kept verbatim; a single miss makes the whole path miss. */
  function ResolveFields(fields: seq<string>, document: string,
                         read: (string, string) -> Option<JsonContent>): (r: Option<seq<string>>)
    ensures r.Some? <==> forall i | 0 <= i < |fields| ::
              IsExpression(fields[i]) ==> read(document, ExpressionOf(fields[i])).Some?
    ensures r.Some? ==> |r.value| == |fields|
    ensures r.Some? ==> forall i | 0 <= i < |fields| ::
              !IsExpression(fields[i]) ==> r.value[i] == fields[i]
    ensures r.Some? ==> forall i | 0 <= i < |fields| ::
              IsExpression(fields[i]) ==>
                r.value[i] == ContentText(read(document, ExpressionOf(fields[i])).value)
    decreases |fields|
  {
    if |fields| == 0 then Some([])
    else
      match ResolveField(fields[0], document, read)
      case None => None
      case Some(value) =>
        match ResolveFields(fields[1..], document, read)
        case None => None
        case Some(rest) => Some([value] + rest)
  }

  /** One entry of render: split the path on '/', resolve the fields, join
      them with '/' and delete every '"'. None when a lookup misses. */
  function ResolveFullName(path: string, document: string,
                           read: (string, string) -> Option<JsonContent>): (r: Option<string>)
    ensures r.Some? ==> '"' !in r.value
    ensures r.Some? <==> ResolveFields(Split(path, '/'), document, read).Some?
    ensures var fields := ResolveFields(Split(path, '/'), document, read);
            fields.Some? ==> r == Some(Join(Unquote(fields.value), "/"))
  {
    match ResolveFields(Split(path, '/'), document, read)
    case None => None
    case Some(fields) =>
      ReplaceRemovesChar(Join(fields, "/"), '"');
      UnquoteJoin(fields);
      Some(Replace(Join(fields, "/"), "\"", ""))
  }

  /** Every field with its double quotes removed, in order. */
  function Unquote(fields: seq<string>): (r: seq<string>)
    ensures |r| == |fields|
    ensures forall i | 0 <= i < |r| :: '"' !in r[i]
    ensures forall i | 0 <= i < |r| :: r[i] == Replace(fields[i], "\"", "")
    decreases |fields|
  {
    if |fields| == 0 then []
    else
      ReplaceRemovesChar(fields[0], '"');
      [Replace(fields[0], "\"", "")] + Unquote(fields[1..])
  }

  /** Removing the quotes from the joined name is the same as joining the
      unquoted fields: the separator holds no quote. */
  lemma {:induction false} UnquoteJoin(fields: seq<string>)
    ensures Replace(Join(fields, "/"), "\"", "") == Join(Unquote(fields), "/")
    decreases |fields|
  {
    if |fields| == 1 {
      assert Unquote(fields) == [Replace(fields[0], "\"", "")];
    } else if |fields| > 1 {
      var u := Unquote(fields);
      assert u[1..] == Unquote(fields[1..]);
      UnquoteJoin(fields[1..]);
      ReplaceCharDistributes(fields[0] + "/", Join(fields[1..], "/"), '"', "");
      ReplaceCharDistributes(fields[0], "/", '"', "");
      assert Replace("/", "\"", "") == "/" by {
        AbsentCharMeansAbsent("/", "\"", 0);
      }
    }
  }

  /** The resolved names of the entries, in entry order, misses skipped. */
  function RenderEntries(path: string, entries: StringMap,
                         read: (string, string) -> Option<JsonContent>): (r: seq<string>)
    ensures |r| <= |entries|
    ensures forall name | name in r :: '"' !in name
    decreases |entries|
  {
    if |entries| == 0 then []
    else
      var rest := RenderEntries(path, entries[1..], read);
      match ResolveFullName(path, entries[0].1, read)
      case None => rest
      case Some(fullName) => [fullName] + rest
  }

  /** render: no names for a null or empty path; otherwise the resolved names
      of the entries of the variable map, in entry order, none holding a '"'. */
  function Render(path: Option<string>, resolvedVariables: StringMap,
                  read: (string, string) -> Option<JsonContent>): (r: seq<string>)
    ensures IsNullOrEmpty(path) ==> r == []
    ensures !IsNullOrEmpty(path) ==> r == RenderEntries(path.value, resolvedVariables, read)
    ensures |r| <= |resolvedVariables|
    ensures forall name | name in r :: '"' !in name
  {
    if IsNullOrEmpty(path) then [] else RenderEntries(path.value, resolvedVariables, read)
  }

  function OptionToSeq<T>(o: Option<T>): seq<T> {
    match o
    case None => []
    case Some(v) => [v]
  }

  /** Entries are rendered independently: the names of a + b are those of a
      followed by those of b. */
  lemma {:induction false} RenderEntriesAppend(path: string, a: StringMap, b: StringMap,
                                               read: (string, string) -> Option<JsonContent>)
    ensures RenderEntries(path, a + b, read) == RenderEntries(path, a, read) + RenderEntries(path, b, read)
    decreases |a|
  {
    if |a| > 0 {
      assert (a + b)[1..] == a[1..] + b;
      RenderEntriesAppend(path, a[1..], b, read);
    } else {
      assert a + b == b;
    }
  }

  /** A map of one entry renders to that entry's resolved name, if any. */
  lemma RenderSingleEntry(path: string, e: (string, string), read: (string, string) -> Option<JsonContent>)
    ensures RenderEntries(path, [e], read) == OptionToSeq(ResolveFullName(path, e.1, read))
  {
  }

  /** The first entry contributes its resolved name, if any, before the rest. */
  lemma RenderEntryThenRest(path: string, e: (string, string), b: StringMap,
                            read: (string, string) -> Option<JsonContent>)
    ensures RenderEntries(path, [e] + b, read)
            == OptionToSeq(ResolveFullName(path, e.1, read)) + RenderEntries(path, b, read)
  {
    RenderSingleEntry(path, e, read);
    RenderEntriesAppend(path, [e], b, read);
  }

  /** An entry contributes exactly its own resolved name, or nothing on a miss;
      the entries around it are rendered as if it were absent. */
  lemma EntryContributesAtMostItsName(path: string, a: StringMap, e: (string, string), b: StringMap,
                                      read: (string, string) -> Option<JsonContent>)
    ensures RenderEntries(path, a + [e] + b, read)
            == RenderEntries(path, a, read) + OptionToSeq(ResolveFullName(path, e.1, read))
               + RenderEntries(path, b, read)
  {
    RenderEntryThenRest(path, e, b, read);
    ConcatAssociative(a, [e], b);
    RenderEntriesAppend(path, a, [e] + b, read);
    ConcatAssociative(RenderEntries(path, a, read), OptionToSeq(ResolveFullName(path, e.1, read)),
                      RenderEntries(path, b, read));
  }

  /** For a non-empty path, each entry of the variable map contributes exactly
      its own resolved name, or nothing on a miss, between the names of the
      entries before it and those after it. */
  lemma RenderEntryInPlace(path: string, a: StringMap, e: (string, string), b: StringMap,
                           read: (string, string) -> Option<JsonContent>)
    requires |path| > 0
    ensures Render(Some(path), a + [e] + b, read)
            == Render(Some(path), a, read) + OptionToSeq(ResolveFullName(path, e.1, read))
               + Render(Some(path), b, read)
  {
    EntryContributesAtMostItsName(path, a, e, b, read);
  }

  /** A field `${e}` holds the expression e, for an e without braces. */
  lemma ExpressionOfWrapped(e: string)
    requires '{' !in e && '}' !in e
    ensures IsExpression("${" + e + "}")
    ensures ExpressionOf("${" + e + "}") == e
  {
    var f := "${" + e + "}";
    assert f[..2] == "${";
    assert f[2..] == e + "}";
    ReplaceAtOccurrence(f, "${", "");
    AbsentCharMeansAbsent(e + "}", "${", 1);
    ReplaceCharDistributes(e, "}", '}', "");
    AbsentCharMeansAbsent(e, "}", 0);
    assert StartsWith("}", "}");
    ReplaceAtOccurrence("}", "}", "");
    assert Replace(f, "${", "") == e + "}";
    assert Replace(e, "}", "") == e;
    assert Replace("}", "}", "") == "";
  }

  /** A path made of a literal field and an expression field `${e}` renders,
      for one entry, to the literal, a '/', and the text read for e. */
  lemma RenderLiteralThenExpression(key: string, document: string, literal: string, e: string,
                                    value: string, read: (string, string) -> Option<JsonContent>)
    requires |literal| > 0 && '/' !in literal && '"' !in literal && !IsExpression(literal)
    requires '{' !in e && '}' !in e && '/' !in e
    requires read(document, e) == Some(JsonString(value)) && '"' !in value
    ensures Render(Some(literal + "/${" + e + "}"), [(key, document)], read) == [literal + "/" + value]
  {
    var field := "${" + e + "}";
    var path := literal + "/${" + e + "}";
    LiteralThenExpressionFields(literal, e);
    ExpressionOfWrapped(e);
    var fields := [literal, field];
    assert IsExpression(field) && ExpressionOf(field) == e;
    assert ContentText(JsonString(value)) == value;
    var r := ResolveFields(fields, document, read);
    assert r.Some? && |r.value| == 2;
    assert r.value[0] == literal && r.value[1] == value;
    assert r.value == [literal, value];
    assert Join([literal, value], "/") == literal + "/" + value;
    assert '"' !in literal + "/" + value;
    AbsentCharMeansAbsent(literal + "/" + value, "\"", 0);
    var entries: StringMap := [(key, document)];
    assert RenderEntries(path, entries[1..], read) == [];
  }

  /** As above, but the expression misses: the entry yields no name at all. */
  lemma RenderLiteralThenMissingExpression(key: string, document: string, literal: string, e: string,
                                           read: (string, string) -> Option<JsonContent>)
    requires |literal| > 0 && '/' !in literal && !IsExpression(literal)
    requires '{' !in e && '}' !in e && '/' !in e
    requires read(document, e) == None
    ensures Render(Some(literal + "/${" + e + "}"), [(key, document)], read) == []
  {
    var field := "${" + e + "}";
    var path := literal + "/${" + e + "}";
    LiteralThenExpressionFields(literal, e);
    ExpressionOfWrapped(e);
    var fields := [literal, field];
    assert IsExpression(field) && ExpressionOf(field) == e;
    assert ResolveFields(fields, document, read) == None;
    var entries: StringMap := [(key, document)];
    assert RenderEntries(path, entries[1..], read) == [];
  }

  /** literal/${e} splits into the two fields. */
  lemma LiteralThenExpressionFields(literal: string, e: string)
    requires |literal| > 0 && '/' !in literal && '/' !in e
    ensures Split(literal + "/${" + e + "}", '/') == [literal, "${" + e + "}"]
  {
    var field := "${" + e + "}";
    var path := literal + "/${" + e + "}";
    assert path == literal + ['/'] + field;
    assert path[|literal|] == '/';
    assert '/' !in field;
    SplitAllAtSeparator(literal, '/', field);
    SplitAllWithoutSeparator(field, '/');
  }
}

=== FILE: wrappers.dfy ===
/** The optional value used for Java references that may be null and for
    lookups that may miss. */
module Wrappers {

  datatype Option<+T> = None | Some(value: T) {

    /** Returns the value held in Some, or the default when None */
    function GetOr(default: T): T {
      match this
      case Some(v) => v
      case None => default
    }
  }
}
